=== FILE: README.md ===
# Flip-graph descent over GF(2), modelled in Dafny

The tensor-matrix editor lets a user describe a bilinear algorithm as a list
of rank-1 terms. For m×m matrix multiplication the matrices have n = m²
entries each, named a_1..a_n, b_1..b_n and c_1..c_n, and n ranges from 2 to
9. Each term is a triple (u, v, w) of 0/1 vectors of length n. Together the
terms represent an n×n×n tensor over GF(2). Cell (i, j, k) of that tensor is the parity of the
number of terms with u[i], v[j] and w[k] all set. The "Reduce" button sends
the terms to a web worker. The worker runs a randomized flip-graph descent:
it repeatedly picks two live terms that share the value of one component,
XORs their other components, and so lowers the number of live terms (the
rank) whenever an XOR replaces a nonzero value with zero. A zero XOR of two
zero values sets nothing and leaves the rank as it was.

This project models that engine as pure functions over immutable values and
proves its properties:

- `bits.dfy` (`Bits`): bit-vectors as natural numbers, i.e. the BigInt
  values. It covers `packBits`/`unpackBits` and XOR.
- `terms.dfy` (`Terms`): the term triple and the three component types.
  It covers `componentsToFlat`/`flatToComponents`, the result filter of the
  message handler, and the editor's non-empty term count.
- `tensor.dfy` (`Tensor`): the represented tensor, the flip identity, and
  `calcTensor` with its tensor and conflict cubes.
- `lists.dfy` (`Lists`): `indexOf`, swap-remove, and a list paired with a
  reverse position map (`flippable`/`flippableIdx`, `nonZero`/`nonZeroPos`).
- `dupindex.dfy` (`DupIndex`): the per-component duplicate index,
  `_add` and `_del`.
- `scheme.dfy` (`FlipScheme`): the `Scheme` state, its invariant, the
  constructor, `_zeroOutTerm`, `_set` and the flip move.
- `sampler.dfy` (`Sampler`): `_samplePair`.
- `descent.dfy` (`Descent`): `flip()`, `runDescent`, the zero-term
  filter and `onmessage`.

The invariant `FlipScheme.Inv` says the following:

- The live list is consistent with its position map.
- Every live slot holding a nonzero value x in component c is registered
  under x in index c, and nothing else is registered.
- Blocks never repeat a slot.
- A value is on the flippable list exactly when its block has two or more
  slots.

Random numbers are an input. A `Draw` carries the three numbers one call of
`_samplePair` consumes. `Math.floor(Math.random() * b)` becomes `r % b`.
`runDescent` takes a function from the flip counter to the draw.

The worker and the editor disagree on which terms are present. The result
filter (flip-worker.js:246) and the editor's count (index_files/script.js:82)
treat a term as present only when u, v and w are all set. The constructor
(flip-worker.js:62) tests u alone. Every flip keeps that test exact: a slot
is live iff its u is nonzero (`FlipScheme.LiveByU`). So both reported ranks
count the terms with a nonzero u, and the descent stops early only when no
two such terms share a nonzero value in any component. A term with u set
but v or w empty has three fates:

- If no flip touches it, it counts in both ranks and the filter drops it
  (`Descent.HalfEmptyTermCounted`).
- A flip can fill in its empty component. Then it comes back as a
  non-empty term. In `Descent.HalfEmptyTermCompleted` the editor counts one
  non-empty term before Reduce and two after, and the worker reports 2 → 2.
- A flip can zero it: when the XOR it takes in a component that was nonzero
  comes out zero, the whole term is zeroed and leaves the rank
  (`Descent.HalfEmptyTermZeroed`).

A flip can also leave a half-filled term half-filled: the XOR of its empty
component with another empty one is zero but changes nothing
(`Descent.HalfEmptyTermFlipped`). Such a term, like an untouched one, still
counts in the final rank and is dropped by the filter.

The equalities between the worker's ranks and the editor's counts therefore
carry the side condition `DecidedByU`: every input term is all-nonzero or
has u = 0. This holds whenever the user has no half-filled term.

The worker does not validate its input. A flat length that is a multiple of
three is a precondition here, and `componentsToFlat` always produces one.

## Model

| member | source | states |
|---|---|---|
| Bits.UnpackPack | flip-worker.js:4-19 | unpacking |a| bits of packBits(a) gives back the 0/1 array a |
| Bits.PackUnpack | flip-worker.js:4-19 | for x < 2^n, packing the n unpacked bits of x gives x again |
| Bits.PackBitsBit | flip-worker.js:4-11 | bit i of packBits(a) is set iff a has a 1 at position i |
| Bits.PackBitsWidth | flip-worker.js:4-11 | an array of length n packs to a value below 2^n |
| Bits.PackBitsNonzero | flip-worker.js:4-11 | packBits(a) is nonzero iff a has a set entry, so the worker's `!== 0n` tests agree with the editor's `some(b => b)` |
| Bits.UnpackBits | flip-worker.js:13-19 | the result has length n and entry i is 1 iff bit i of the value is set |
| Bits.UnpackNonzero | flip-worker.js:13-19 | a nonzero value below 2^n unpacks to an array with a set entry |
| Bits.Xor | flip-worker.js:87-88 | the XOR of two values is zero iff they are equal; a flip zeroes a term only when such a zero XOR replaces a nonzero value (`Kills`) |
| Bits.XorBit | flip-worker.js:87-88 | bit i of a ^ b is the exclusive or of bit i of a and of b |
| Bits.XorWidth | flip-worker.js:87-88 | the XOR of two values below 2^n is below 2^n |
| Terms.UnflattenFlatten | flip-worker.js:22-41 | reading the flat layout back as triples gives the original triples |
| Terms.FlattenUnflatten | flip-worker.js:22-41 | laying triples read from a flat array out again gives the flat array |
| Terms.UnflattenSnoc | flip-worker.js:245-248 | pushing three values onto a flat array appends one triple |
| Terms.ComponentsToFlat | flip-worker.js:22-28 | the flat array holds three values per component |
| Terms.FlatToComponents | flip-worker.js:31-41 | one component comes out for every three flat values |
| Terms.ComponentsRoundTrip | flip-worker.js:22-41 | flatToComponents(componentsToFlat(cs), n) == cs when every vector has length n |
| Terms.DropDead | flip-worker.js:244-249 | the filter never grows the list and every kept term has three nonzero components |
| Terms.DropDeadOrder | flip-worker.js:244-249 | the kept terms occur in the input in the same order |
| Terms.DropDeadExact | flip-worker.js:244-249 | each all-nonzero term is kept as often as it occurs, and no other term is kept |
| Terms.DropDeadIdempotent | flip-worker.js:244-249 | filtering twice equals filtering once |
| Terms.DropDeadAppend | flip-worker.js:244-249 | the filter distributes over concatenation |
| Terms.DropDeadSnoc | flip-worker.js:245-248 | one more input triple adds that triple to the output iff all its values are nonzero |
| Terms.DropDeadCount | flip-worker.js:244-249 | the output length is the number of all-nonzero slots |
| Terms.NonEmptyCountSlots | index_files/script.js:80-85 | the non-empty count is the number of components whose u, v and w each have a set entry |
| Terms.NonEmptyCountIsKept | index_files/script.js:288-290 | the editor's non-empty count equals the number of terms the worker's filter keeps from the packed components |
| Tensor.CountAppend | index_files/script.js:25-35 | the count of a cell over concatenated term lists is the sum of the counts |
| Tensor.CountUpdate | flip-worker.js:139-153 | replacing one term changes a cell's count by exactly the old and new term's contributions |
| Tensor.ZeroComponentContributesNothing | index_files/script.js:27-31 | a term with a zero component contributes to no cell |
| Tensor.CountDropDead | flip-worker.js:244-249 | dropping terms with a zero component leaves every cell's count unchanged |
| Tensor.FlipAlgebra | flip-worker.js:79-88 | two terms sharing component `type` contribute the same parity to each cell before and after the two XOR updates |
| Tensor.CalcTensor | index_files/script.js:17-56 | the result is n×n×n; tensor[i][j][k] is the count mod 2 and conflicts[i][j][k] holds iff the count is positive and even |
| Tensor.ConflictCellIsZero | index_files/script.js:48-50 | a conflict cell has tensor bit 0 |
| Tensor.TensorFromParities | index_files/script.js:41-53 | component lists with the same count parities give the same tensor cube |
| Tensor.ViewFromCounts | index_files/script.js:41-53 | component lists with the same counts give the same tensor and conflict cubes |
| Tensor.UCountAppend | index_files/script.js:25-35 | counts over concatenated component lists add |
| Tensor.UCountSplit | index_files/script.js:25-35 | removing one component lowers a count by that component's own contribution |
| Tensor.UCountPermutation | index_files/script.js:25-35 | reordering the components leaves every count unchanged |
| Tensor.CalcTensorPermutation | index_files/script.js:17-56 | calcTensor returns the same cubes for any reordering of the components |
| Tensor.CalcTensorDropEmpty | index_files/script.js:27-31 | removing a component with an all-zero u, v or w leaves both cubes unchanged |
| Tensor.UCountPacked | index_files/script.js:25-35 | the editor's count of a cell equals the count over the packed terms |
| Tensor.UCountUnpacked | flip-worker.js:31-41 | for cells below n, unpacking terms to width n keeps every count |
| Lists.IndexOf | flip-worker.js:116 | the result is -1 iff x is absent, else the first position holding x |
| Lists.SwapRemove | flip-worker.js:117-120 | the result is one shorter; position p holds the old last element and the other positions are unchanged |
| Lists.SwapRemoveMembers | flip-worker.js:117-120 | on a list without repeats, swap-remove drops exactly the element at p (also when p is last) and keeps the list repeat-free |
| Lists.Without | flip-worker.js:116-120 | dropping slot s from a block without repeats removes exactly s and shortens the block iff s was in it |
| Lists.Push | flip-worker.js:63-64 | appending a new element at the end, after the old entries in their order, with its position keeps list and map consistent and adds exactly that element |
| Lists.Remove | flip-worker.js:162-169 | removing through the position map keeps list and map consistent and removes exactly that element, by swap-remove at its recorded position, so the other entries keep their order except the last; an absent element leaves the list and map unchanged |
| DupIndex.Add | flip-worker.js:93-108 | `_add` registers exactly (s, x) for nonzero x, nothing for zero, and keeps the index well formed when s was not yet registered under x |
| DupIndex.Del | flip-worker.js:110-137 | `_del` deregisters exactly (s, x) and keeps the index well formed: blocks without repeats, and flippable iff a block holds two slots or more |
| FlipScheme.BuildUpTo | flip-worker.js:59-69 | after the first m slots the invariant holds and exactly the slots below m with nonzero u are live |
| FlipScheme.Build | flip-worker.js:45-70 | the constructor establishes the invariant, keeps the terms, and makes exactly the slots with nonzero u live |
| FlipScheme.RegisterKeepsInv | flip-worker.js:62-67 | registering a new live slot's three components keeps the invariant |
| FlipScheme.ZeroOutTerm | flip-worker.js:155-170 | `_zeroOutTerm` zeroes the three components, removes the slot from the live list, lowers the rank by one iff it was live, and keeps the invariant |
| FlipScheme.SetComp | flip-worker.js:139-153 | `_set` is a no-op for the current value, zeroes the whole term for a new zero, and otherwise changes one component; it never revives a slot and keeps the invariant on live slots |
| FlipScheme.Flip | flip-worker.js:74-91 | the indexed flip keeps the invariant, acts on the terms as the bare flip does, and lowers the rank by the number of slots it zeroes |
| FlipScheme.FlipTermsShape | flip-worker.js:79-88 | slot j1 keeps components `type` and tp and takes n1 ^ n2 in tn, unless it is zeroed, which needs n1 ^ n2 = 0; likewise for j2; other slots are unchanged |
| FlipScheme.FlipKeepsTensor | flip-worker.js:74-91 | a flip preserves the tensor mod 2, also when it zeroes a term |
| FlipScheme.FlipTermsKeepTensor | flip-worker.js:79-88 | the flip on bare terms preserves the tensor whenever the two slots differ and agree in component `type` |
| FlipScheme.FlipCellParity | flip-worker.js:79-88 | across a flip each cell's count keeps its parity |
| FlipScheme.PairParity | flip-worker.js:87-88 | the two updated terms together keep their parity in each cell |
| FlipScheme.FlipRank | flip-worker.js:72 | a flip lowers the rank by at most two, never raises it, and never revives a slot |
| FlipScheme.BuildTidy | flip-worker.js:61-69 | when every term is all-nonzero or has u = 0, the live slots are exactly the all-nonzero ones |
| FlipScheme.SetTermNonzero | flip-worker.js:139-148 | setting a component of an all-nonzero term keeps it all-nonzero unless it zeroes it |
| FlipScheme.FlipKeepsTidy | flip-worker.js:74-91 | if live slots are exactly the all-nonzero ones before a flip, they are after it |
| FlipScheme.SetTermU | flip-worker.js:139-148 | setting a component of a term with nonzero u leaves u nonzero iff it does not zero the term |
| FlipScheme.FlipKeepsLiveByU | flip-worker.js:74-91 | if live slots are exactly those with a nonzero u before a flip, as the constructor makes them, they are after it |
| FlipScheme.RankIsKept | flip-worker.js:244-249 | if live slots are exactly the all-nonzero ones, the rank is the number of terms the filter keeps |
| FlipScheme.FlipKeepsWidth | flip-worker.js:87-88 | a flip sets no bit at or above the vector width |
| FlipScheme.FlipTermsKeepWidth | flip-worker.js:87-88 | the same for the bare flip |
| Sampler.PickKind | flip-worker.js:180-191 | the draw below s0 + s1 + s2 selects the type whose range holds it, and the offset within that type's list |
| Sampler.PickKindCovers | flip-worker.js:180-191 | every flippable value of every type is selected by some draw |
| Sampler.OtherIndex | flip-worker.js:197-199 | the second index lies in the block and differs from the first |
| Sampler.OtherIndexCovers | flip-worker.js:197-199 | every index other than the first is reachable as the second |
| Sampler.SamplePairCovers | flip-worker.js:172-202 | every ordered pair of distinct slots in the block of every flippable value is returned for the draw that picks that value and those two positions |
| Sampler.SamplePair | flip-worker.js:172-202 | under the invariant the result is null iff all three flippable lists are empty; otherwise the two slots are distinct, live, and share the flippable value of component `type` |
| Sampler.FlippableHasBlock | flip-worker.js:193-195 | under the invariant a value on a flippable list has a block of two slots or more, so the null return at line 195 is unreachable |
| Sampler.BlockPair | flip-worker.js:197-201 | two distinct positions of a block name a valid flip pair |
| Sampler.NoneMeansExhausted | flip-worker.js:176-178 | a null sample under the invariant means no value is held by two live slots in any component |
| Descent.FlipStep | flip-worker.js:74-91 | `flip()` returns false iff no value is flippable, and then changes nothing; otherwise it keeps the invariant and the tensor and lowers the rank by at most two |
| Descent.FlipStepKeepsTidy | flip-worker.js:74-91 | a flip step keeps the live slots exactly the all-nonzero ones |
| Descent.FlipStepKeepsWidth | flip-worker.js:74-91 | a flip step keeps every value below 2^n |
| Descent.FlipStepKeepsLiveByU | flip-worker.js:74-91 | a flip step keeps the live slots exactly those with a nonzero u |
| Descent.Descend | flip-worker.js:212-215 | the loop from counter i stops at the limit or at the first failed `flip()`, and then nothing is flippable; the invariant, length and tensor are kept; each flip lowers the rank by at most two; no slot revives |
| Descent.DescendKeepsWidth | flip-worker.js:212-215 | the loop keeps every value below 2^n |
| Descent.DescendKeepsTidy | flip-worker.js:212-215 | the loop keeps the live slots exactly the all-nonzero ones |
| Descent.DescendKeepsLiveByU | flip-worker.js:212-215 | the loop keeps the live slots exactly those with a nonzero u |
| Descent.DescentLoop | flip-worker.js:209-227 | the loop ends in the state and counter the reference loop `Descend` gives, and its best rank is the final rank |
| Descent.RankByU | flip-worker.js:72 | while live slots are those with a nonzero u, `rank()` is the number of such terms |
| Descent.BuildRank | flip-worker.js:61-64 | the initial rank is the number of terms with nonzero u |
| Descent.KeptAtMostU | flip-worker.js:244-249 | the filter keeps no more terms than there are terms with a nonzero u |
| Descent.NoCandidateExhausted | flip-worker.js:213 | when the sampler is exhausted, no two distinct terms with nonzero u share a nonzero value in any component |
| Descent.ExhaustedNoCandidate | flip-worker.js:172-178 | conversely, when no two such terms share a value, `_samplePair` has nothing to return |
| Descent.DescentFacts | flip-worker.js:206-234 | at the end of the descent the rank counts the nonzero-u terms, an early stop leaves them exhausted, bit widths are kept, and with `DecidedByU` the rank is the filtered length |
| Descent.RunDescent | flip-worker.js:206-234 | the returned data, flip count and final rank are those of the reference loop from the built scheme; no flips when flipLim is 0; the tensor is preserved; both ranks count the nonzero-u terms; initialRank − 2·flips ≤ finalRank ≤ initialRank; stopping before flipLim means no two nonzero-u terms share a value; bit widths are kept; with `DecidedByU` both ranks are filtered lengths |
| Descent.FilterZero | flip-worker.js:243-249 | the filter loop keeps, in order, the triples whose three values are nonzero |
| Descent.KeepAndUnpack | flip-worker.js:243-251 | the handler's output is the filtered terms unpacked to width n |
| Descent.PackAllFits | flip-worker.js:22-28 | vectors of length n pack to values below 2^n |
| Descent.DropDeadFits | flip-worker.js:244-249 | the kept terms fit in n bits when the input does |
| Descent.UnpackNonEmpty | flip-worker.js:31-41 | unpacking all-nonzero terms that fit in n bits gives non-empty components |
| Descent.ReducedTensor | flip-worker.js:237-251 | the editor's tensor of the reduced components equals that of the submitted components |
| Descent.HandlerResult | flip-worker.js:237-258 | from what the descent guarantees: the result is no longer than the input or than finalRank, has the input's tensor, and with `DecidedByU` matches the editor's counts |
| Descent.OnMessage | flip-worker.js:237-258 | the result is the reference descent's terms, filtered and unpacked to width n, and finalRank is its rank; no more components come back than were sent; all have width n, and all are non-empty when the input had width n; `calcTensor` is unchanged; the number returned ≤ finalRank ≤ initialRank; with `DecidedByU` the ranks are the editor's non-empty count before and the result length after |
| Descent.ULiveSlots | flip-worker.js:62 | the constructor's live test on packed u agrees with "u has a set entry" in the editor |
| Descent.HalfEmptyTermCounted | flip-worker.js:62 | a component with u set and v empty counts in the worker's rank but not in the editor's count, and the filter drops it while no flip touches it |
| Descent.HalfEmptyTermFlipped | flip-worker.js:79-88 | flipping two half-filled terms with empty v on u: the XOR in v is zero but zeroes nothing, slot 0 is unchanged and slot 1 stays half-filled with the XOR of the w's |
| Descent.HalfEmptyTermZeroed | flip-worker.js:79-88 | flipping two equal half-filled terms on u: slot 1 takes w = 0 and is zeroed, slot 0 is unchanged, so the rank drops by one |
| Descent.HalfEmptyTermCompleted | flip-worker.js:62 | a concrete input of two components, one with v empty: the editor counts 1, the worker builds rank 2, one flip with zero draws fills in the empty v, and the handler returns 2 non-empty components with final rank 2 |

## Left out

- Progress messages (flip-worker.js:218-226) and the completion `postMessage` (flip-worker.js:253-258) are I/O. `OnMessage` returns the three reported values instead.
- `Math.random` is replaced by explicit draws. The uniformity of the choice is not modelled; only the reachability of every choice is: per choice (`PickKindCovers`, `OtherIndexCovers`) and for the whole sample (`SamplePairCovers`).
- The default `flipLim = 1_000_000` is not modelled. The limit is always a parameter.
- BigInt representation and the O(1) cost of the maps are abstracted away. Values are unbounded naturals; maps and lists are Dafny maps and sequences.
- The DOM, rendering, storage and worker plumbing (index_files/render.js, index_files/flip.js, index_files/storage.js, and the UI parts of index_files/script.js) are not part of this model. That includes the "already in progress" guard in index_files/flip.js.
- `calcTensor` reads `n` and `components` from the global store. Here they are parameters.
- Descent.OnMessage: the ranks equal the editor's counts only under `DecidedByU`, because of the constructor's u-only liveness test described above. Without it the result can even hold more non-empty components than the editor counted before (`Descent.HalfEmptyTermCompleted`).

=== FILE: bits.dfy ===
/**
 Bit-vectors of the descent engine. A component vector is an arbitrary-precision
 integer whose bit i says whether basis index i is present; the editor keeps the
 same vector as an array of 0/1 entries. This module defines the bit view of a
 natural number, exclusive or, and the packing between the two representations.
 */
module Bits {

  /** One entry of an editor vector. */
  type Bit01 = b: nat | b <= 1

  function Pow2(n: nat): (r: nat)
    ensures r >= 1
  {
    if n == 0 then 1 else 2 * Pow2(n - 1)
  }

  /** Bit i of x, that is `(x >> i) & 1 == 1`. */
  predicate Bit(x: nat, i: nat)
  {
    if i == 0 then x % 2 == 1 else Bit(x / 2, i - 1)
  }

  lemma {:induction false} ZeroHasNoBits(i: nat)
    ensures !Bit(0, i)
  {
    if i > 0 {
      ZeroHasNoBits(i - 1);
    }
  }

  /** Bitwise exclusive or of two arbitrary-precision values (`a ^ b`). */
  function Xor(a: nat, b: nat): (r: nat)
    ensures r == 0 <==> a == b
    decreases a + b
  {
    if a == 0 then b
    else if b == 0 then a
    else 2 * Xor(a / 2, b / 2) + (if a % 2 == b % 2 then 0 else 1)
  }

  /** Exclusive or acts bit by bit. */
  lemma {:induction false} XorBit(a: nat, b: nat, i: nat)
    ensures Bit(Xor(a, b), i) == (Bit(a, i) != Bit(b, i))
    decreases i
  {
    if a == 0 {
      ZeroHasNoBits(i);
    } else if b == 0 {
      ZeroHasNoBits(i);
    } else if i > 0 {
      XorBit(a / 2, b / 2, i - 1);
    }
  }

  /** Exclusive or never sets a bit at or above the common width. */
  lemma {:induction false} XorWidth(a: nat, b: nat, n: nat)
    requires a < Pow2(n) && b < Pow2(n)
    ensures Xor(a, b) < Pow2(n)
  {
    if n > 0 && a != 0 && b != 0 {
      XorWidth(a / 2, b / 2, n - 1);
    }
  }

  /** `arr.some(b => b)`: some entry is set. */
  predicate AnySet(a: seq<Bit01>)
  {
    exists i :: 0 <= i < |a| && a[i] == 1
  }

  /** Entry i of an editor vector read with JavaScript truthiness: an index past
      the end reads `undefined`, which counts as unset. */
  predicate InBit(a: seq<Bit01>, i: nat)
  {
    i < |a| && a[i] == 1
  }

  /** packBits: entry i of the array becomes bit i of the result. */
  function PackBits(a: seq<Bit01>): nat
  {
    if |a| == 0 then 0 else a[0] + 2 * PackBits(a[1..])
  }

  /** unpackBits: the low n bits of x as a 0/1 array. */
  function UnpackBits(n: nat, x: nat): (r: seq<Bit01>)
    ensures |r| == n
    ensures forall i :: 0 <= i < n ==> (r[i] == 1 <==> Bit(x, i))
  {
    seq(n, i requires 0 <= i < n => if Bit(x, i) then 1 else 0)
  }

  /** Packing puts entry i at bit i and sets nothing beyond the array. */
  lemma {:induction false} PackBitsBit(a: seq<Bit01>, i: nat)
    ensures Bit(PackBits(a), i) == InBit(a, i)
    decreases |a|
  {
    if |a| == 0 {
      ZeroHasNoBits(i);
    } else if i > 0 {
      PackBitsBit(a[1..], i - 1);
    }
  }

  lemma {:induction false} PackBitsWidth(a: seq<Bit01>)
    ensures PackBits(a) < Pow2(|a|)
    decreases |a|
  {
    if |a| > 0 {
      PackBitsWidth(a[1..]);
    }
  }

  /** Round trip: unpacking a packed 0/1 array at its own length gives it back. */
  lemma UnpackPack(a: seq<Bit01>)
    ensures UnpackBits(|a|, PackBits(a)) == a
  {
    var r := UnpackBits(|a|, PackBits(a));
    forall i | 0 <= i < |a|
      ensures r[i] == a[i]
    {
      PackBitsBit(a, i);
    }
  }

  /** Round trip: packing the low n bits of a value below 2^n gives the value back. */
  lemma {:induction false} PackUnpack(n: nat, x: nat)
    requires x < Pow2(n)
    ensures PackBits(UnpackBits(n, x)) == x
  {
    if n > 0 {
      var r := UnpackBits(n, x);
      assert r[1..] == UnpackBits(n - 1, x / 2);
      PackUnpack(n - 1, x / 2);
    }
  }

  /** A packed vector is the zero value exactly when no entry is set, so the
      worker's `!== 0n` and the editor's `some(b => b)` agree. */
  lemma PackBitsNonzero(a: seq<Bit01>)
    ensures PackBits(a) != 0 <==> AnySet(a)
  {
    if AnySet(a) {
      var i :| 0 <= i < |a| && a[i] == 1;
      PackBitsBit(a, i);
      if PackBits(a) == 0 {
        ZeroHasNoBits(i);
      }
    } else {
      ZeroPack(a);
    }
  }

  lemma {:induction false} ZeroPack(a: seq<Bit01>)
    requires !AnySet(a)
    ensures PackBits(a) == 0
    decreases |a|
  {
    if |a| > 0 {
      assert a[0] == 0;
      assert !AnySet(a[1..]) by {
        forall i | 0 <= i < |a| - 1 ensures a[1..][i] == 0 {
          assert a[1..][i] == a[i + 1];
        }
      }
      ZeroPack(a[1..]);
    }
  }

  /** A nonzero value below 2^n unpacks to a vector with a set entry. */
  lemma UnpackNonzero(n: nat, x: nat)
    requires 0 < x < Pow2(n)
    ensures AnySet(UnpackBits(n, x))
  {
    PackUnpack(n, x);
    PackBitsNonzero(UnpackBits(n, x));
  }
}

=== FILE: descent.dfy ===
/**
 The descent driver: `flip()`, `runDescent` and the worker's message handler.
 The random source is a function from the flip counter to the draws that
 flip consumes; the progress messages are not modelled.
 */
module Descent {
  import opened Bits
  import opened Lists
  import opened Terms
  import opened Tensor
  import opened DupIndex
  import opened FlipScheme
  import opened Sampler

  /** `flip()`: sample a pair and flip it, or report that none is left and
      leave the scheme as it is. */
  function FlipStep(sc: Scheme, d: Draw): (res: (bool, Scheme))
    requires Inv(sc)
    ensures Inv(res.1) && |res.1.terms| == |sc.terms|
    ensures !res.0 <==> TotalFlippable(sc) == 0
    ensures !res.0 ==> res.1 == sc
    ensures !res.0 ==> NoCandidate(sc)
    ensures SameTensor(res.1.terms, sc.terms)
    ensures Rank(sc) - 2 <= Rank(res.1) <= Rank(sc)
    ensures forall q: nat :: Live(res.1, q) ==> Live(sc, q)
  {
    match SamplePair(sc, d)
    case None =>
      NoneMeansExhausted(sc, d);
      (false, sc)
    case Some(p) =>
      FlipKeepsTensor(sc, p);
      FlipRank(sc, p);
      (true, Flip(sc, p))
  }

  /** On a tidy scheme a flip step keeps live slots exactly the all-nonzero ones. */
  lemma FlipStepKeepsTidy(sc: Scheme, d: Draw)
    requires Inv(sc) && Tidy(sc)
    ensures Tidy(FlipStep(sc, d).1)
  {
    match SamplePair(sc, d)
    case None =>
    case Some(p) =>
      FlipKeepsTidy(sc, p);
  }

  /** A flip step keeps live slots exactly those with a nonzero u. */
  lemma FlipStepKeepsLiveByU(sc: Scheme, d: Draw)
    requires Inv(sc) && LiveByU(sc)
    ensures LiveByU(FlipStep(sc, d).1)
  {
    match SamplePair(sc, d)
    case None =>
    case Some(p) =>
      FlipKeepsLiveByU(sc, p);
  }

  /** A flip step sets no bit at or above the vector width. */
  lemma FlipStepKeepsWidth(sc: Scheme, d: Draw, n: nat)
    requires Inv(sc) && FitsWidth(sc.terms, n)
    ensures FitsWidth(FlipStep(sc, d).1.terms, n)
  {
    match SamplePair(sc, d)
    case None =>
    case Some(p) =>
      FlipKeepsWidth(sc, p, n);
  }

  lemma SameTensorTrans(a: seq<Term>, b: seq<Term>, c: seq<Term>)
    requires SameTensor(a, b) && SameTensor(b, c)
    ensures SameTensor(a, c)
  {
    forall i: nat, j: nat, k: nat
      ensures Count(a, i, j, k) % 2 == Count(c, i, j, k) % 2
    {
      assert Count(a, i, j, k) % 2 == Count(b, i, j, k) % 2;
    }
  }

  /** The loop of `runDescent` from counter i on: call `flip()` with the
      draws of round i until the limit or until it finds no pair. The result
      is the scheme left and the counter at exit, which from i = 0 is the
      number of flips performed. */
  function Descend(sc: Scheme, draw: nat -> Draw, i: nat, lim: nat): (r: (Scheme, nat))
    requires Inv(sc) && i <= lim
    ensures Inv(r.0) && |r.0.terms| == |sc.terms|
    ensures i <= r.1 <= lim
    ensures r.1 < lim ==> TotalFlippable(r.0) == 0 && NoCandidate(r.0)
    ensures SameTensor(r.0.terms, sc.terms)
    ensures Rank(sc) - 2 * (r.1 - i) <= Rank(r.0) <= Rank(sc)
    ensures forall q: nat :: Live(r.0, q) ==> Live(sc, q)
    decreases lim - i
  {
    if i == lim then (sc, i)
    else
      var step := FlipStep(sc, draw(i));
      if !step.0 then (sc, i)
      else
        var r := Descend(step.1, draw, i + 1, lim);
        SameTensorTrans(r.0.terms, step.1.terms, sc.terms);
        r
  }

  lemma {:induction false} DescendKeepsWidth(sc: Scheme, draw: nat -> Draw, i: nat, lim: nat, n: nat)
    requires Inv(sc) && i <= lim && FitsWidth(sc.terms, n)
    ensures FitsWidth(Descend(sc, draw, i, lim).0.terms, n)
    decreases lim - i
  {
    if i < lim && FlipStep(sc, draw(i)).0 {
      FlipStepKeepsWidth(sc, draw(i), n);
      DescendKeepsWidth(FlipStep(sc, draw(i)).1, draw, i + 1, lim, n);
    }
  }

  lemma {:induction false} DescendKeepsTidy(sc: Scheme, draw: nat -> Draw, i: nat, lim: nat)
    requires Inv(sc) && i <= lim && Tidy(sc)
    ensures Tidy(Descend(sc, draw, i, lim).0)
    decreases lim - i
  {
    if i < lim && FlipStep(sc, draw(i)).0 {
      FlipStepKeepsTidy(sc, draw(i));
      DescendKeepsTidy(FlipStep(sc, draw(i)).1, draw, i + 1, lim);
    }
  }

  lemma {:induction false} DescendKeepsLiveByU(sc: Scheme, draw: nat -> Draw, i: nat, lim: nat)
    requires Inv(sc) && i <= lim && LiveByU(sc)
    ensures LiveByU(Descend(sc, draw, i, lim).0)
    decreases lim - i
  {
    if i < lim && FlipStep(sc, draw(i)).0 {
      FlipStepKeepsLiveByU(sc, draw(i));
      DescendKeepsLiveByU(FlipStep(sc, draw(i)).1, draw, i + 1, lim);
    }
  }

  /** The slots whose u component is nonzero. */
  function USlots(ts: seq<Term>): set<nat>
  {
    set s: nat | s < |ts| && ts[s].u != 0
  }

  /** While live slots are those with a nonzero u, `rank()` counts them. */
  lemma RankByU(sc: Scheme)
    requires Inv(sc) && LiveByU(sc)
    ensures Rank(sc) == |USlots(sc.terms)|
  {
    PositionedNoDup(sc.live);
    DistinctCard(sc.live.items);
    assert Elems(sc.live.items) == USlots(sc.terms);
  }

  /** The initial rank counts the terms with a nonzero u. */
  lemma BuildRank(flat: seq<nat>)
    requires |flat| % 3 == 0
    ensures Rank(Build(flat)) == |USlots(Unflatten(flat))|
  {
    RankByU(Build(flat));
  }

  /** The filter keeps no more terms than have a nonzero u. */
  lemma KeptAtMostU(ts: seq<Term>)
    ensures |DropDead(ts)| <= |USlots(ts)|
  {
    DropDeadCount(ts, |ts|);
    assert ts[..|ts|] == ts;
    SubsetCard(LiveSlots(ts, |ts|), USlots(ts));
  }

  lemma {:induction false} SubsetCard(a: set<nat>, b: set<nat>)
    requires a <= b
    ensures |a| <= |b|
    decreases |b|
  {
    if a != {} {
      var x :| x in a;
      SubsetCard(a - {x}, b - {x});
    }
  }

  /** No two distinct slots with a nonzero u share a nonzero value in any
      component: there is nothing left to flip. */
  ghost predicate Exhausted(ts: seq<Term>)
  {
    forall c: Comp, s1, s2 ::
      (&& 0 <= s1 < |ts| && 0 <= s2 < |ts| && s1 != s2
       && ts[s1].u != 0 && ts[s2].u != 0 && ts[s1].Get(c) != 0)
      ==> ts[s1].Get(c) != ts[s2].Get(c)
  }

  /** When live slots are those with a nonzero u, an exhausted index means
      exhausted terms ... */
  lemma NoCandidateExhausted(sc: Scheme)
    requires Inv(sc) && LiveByU(sc) && NoCandidate(sc)
    ensures Exhausted(sc.terms)
  {
    var ts := sc.terms;
    forall c: Comp, s1, s2 | && 0 <= s1 < |ts| && 0 <= s2 < |ts| && s1 != s2
      && ts[s1].u != 0 && ts[s2].u != 0 && ts[s1].Get(c) != 0
      ensures ts[s1].Get(c) != ts[s2].Get(c)
    {
      InvIndexed(sc, c);
      var ix := sc.index.Get(c);
      assert Live(sc, s1) && Live(sc, s2);
      assert Holds(ts, sc.live, c, s1, ts[s1].Get(c));
      assert Mem(ix, s1, ts[s1].Get(c));
      assert !Mem(ix, s2, ts[s1].Get(c));
    }
  }

  /** ... and exhausted terms mean an exhausted index. */
  lemma ExhaustedNoCandidate(sc: Scheme)
    requires Inv(sc) && LiveByU(sc) && Exhausted(sc.terms)
    ensures NoCandidate(sc)
  {
    forall c: Comp, x: nat, s1: nat, s2: nat | s1 != s2 && Mem(sc.index.Get(c), s1, x)
      ensures !Mem(sc.index.Get(c), s2, x)
    {
      InvIndexed(sc, c);
      assert Holds(sc.terms, sc.live, c, s1, x);
      if Mem(sc.index.Get(c), s2, x) {
        assert false;
      }
    }
  }

  /** `runDescent(inputData, flipLim)`: build the scheme, flip until the limit
      or until no pair is left, and report the initial rank and the best rank
      seen, which is the rank at the end because a flip never raises it.
      `flips` is the loop counter at exit. */
  method RunDescent(input: seq<nat>, flipLim: nat, draw: nat -> Draw)
    returns (data: seq<nat>, initialRank: nat, finalRank: nat, ghost flips: nat)
    requires |input| % 3 == 0
    ensures |data| == |input|
    ensures var r := Descend(Build(input), draw, 0, flipLim);
            && Unflatten(data) == r.0.terms && flips == r.1 && finalRank == Rank(r.0)
    ensures flipLim == 0 ==> data == input
    ensures flips <= flipLim
    ensures SameTensor(Unflatten(data), Unflatten(input))
    ensures initialRank == |USlots(Unflatten(input))|
    ensures finalRank == |USlots(Unflatten(data))|
    ensures initialRank - 2 * flips <= finalRank <= initialRank
    ensures flips < flipLim ==> Exhausted(Unflatten(data))
    ensures forall n: nat :: FitsWidth(Unflatten(input), n) ==> FitsWidth(Unflatten(data), n)
    ensures DecidedByU(Unflatten(input)) ==>
              initialRank == |DropDead(Unflatten(input))| && finalRank == |DropDead(Unflatten(data))|
  {
    var scheme := Build(input);
    initialRank := Rank(scheme);
    var bestRank;
    scheme, flips, bestRank := DescentLoop(scheme, flipLim, draw);
    data := Flatten(scheme.terms);
    finalRank := bestRank;
    UnflattenFlatten(scheme.terms);
    if flipLim == 0 {
      FlattenUnflatten(input);
    }
    DescentFacts(input, flipLim, draw);
  }

  /** The loop of `runDescent`: flip until the limit or until `flip()`
      reports that no pair is left, keeping the best rank seen. `i` is the
      loop counter at exit. */
  method DescentLoop(init: Scheme, flipLim: nat, draw: nat -> Draw)
    returns (scheme: Scheme, i: nat, bestRank: nat)
    requires Inv(init)
    ensures (scheme, i) == Descend(init, draw, 0, flipLim)
    ensures bestRank == Rank(scheme)
  {
    scheme := init;
    bestRank := Rank(scheme);
    i := 0;
    while i < flipLim
      invariant i <= flipLim
      invariant Inv(scheme)
      invariant bestRank == Rank(scheme)
      invariant Descend(scheme, draw, i, flipLim) == Descend(init, draw, 0, flipLim)
      decreases flipLim - i
    {
      var step := FlipStep(scheme, draw(i));
      if !step.0 {
        break;
      }
      scheme := step.1;
      var rank := Rank(scheme);
      if rank < bestRank {
        bestRank := rank;
      }
      i := i + 1;
    }
  }

  /** What the end state of the descent satisfies: the rank counts the
      slots with a nonzero u, an early stop leaves nothing to flip, bit
      widths are kept, and with `DecidedByU` the rank is what the filter
      keeps. */
  lemma DescentFacts(input: seq<nat>, flipLim: nat, draw: nat -> Draw)
    requires |input| % 3 == 0
    ensures var init := Build(input);
            var r := Descend(init, draw, 0, flipLim);
            && Rank(init) == |USlots(init.terms)|
            && Rank(r.0) == |USlots(r.0.terms)|
            && (r.1 < flipLim ==> Exhausted(r.0.terms))
            && (forall n: nat :: FitsWidth(init.terms, n) ==> FitsWidth(r.0.terms, n))
            && (DecidedByU(init.terms) ==>
                  Rank(init) == |DropDead(init.terms)| && Rank(r.0) == |DropDead(r.0.terms)|)
  {
    var init := Build(input);
    var r := Descend(init, draw, 0, flipLim);
    BuildRank(input);
    DescendKeepsLiveByU(init, draw, 0, flipLim);
    RankByU(r.0);
    if r.1 < flipLim {
      NoCandidateExhausted(r.0);
    }
    forall n: nat | FitsWidth(init.terms, n)
      ensures FitsWidth(r.0.terms, n)
    {
      DescendKeepsWidth(init, draw, 0, flipLim, n);
    }
    if DecidedByU(init.terms) {
      BuildTidy(input);
      RankIsKept(init);
      DescendKeepsTidy(init, draw, 0, flipLim);
      RankIsKept(r.0);
    }
  }

  /** The filter loop of the message handler: keep, in order, the triples of
      the flat array whose three values are all nonzero. */
  method FilterZero(data: seq<nat>) returns (filtered: seq<nat>)
    requires |data| % 3 == 0
    ensures |filtered| % 3 == 0
    ensures Unflatten(filtered) == DropDead(Unflatten(data))
  {
    ghost var ts := Unflatten(data);
    filtered := [];
    var k := 0;
    while k < |data| / 3
      invariant 0 <= k <= |data| / 3
      invariant |filtered| % 3 == 0
      invariant Unflatten(filtered) == DropDead(ts[..k])
    {
      var u, v, w := data[3 * k], data[3 * k + 1], data[3 * k + 2];
      assert ts[k] == Tri(u, v, w);
      DropDeadSnoc(ts, k);
      if u != 0 && v != 0 && w != 0 {
        UnflattenSnoc(filtered, u, v, w);
        filtered := filtered + [u, v, w];
      }
      k := k + 1;
    }
    assert ts[..|data| / 3] == ts;
  }

  /** The tail of the handler: filter the flat array, then unpack every kept
      term to width n. */
  method KeepAndUnpack(data: seq<nat>, n: nat) returns (reduced: seq<Component>)
    requires |data| % 3 == 0
    ensures reduced == UnpackAll(DropDead(Unflatten(data)), n)
    ensures Width(reduced, n)
  {
    var filtered := FilterZero(data);
    reduced := FlatToComponents(filtered, n);
  }

  /** The slots of the editor's list whose u vector has a set entry. */
  function ULive(cs: seq<Component>): set<nat>
  {
    set s: nat | s < |cs| && AnySet(cs[s].u)
  }

  lemma ULiveSlots(cs: seq<Component>)
    ensures ULive(cs) == USlots(PackAll(cs))
  {
    forall s: nat | s < |cs|
      ensures AnySet(cs[s].u) <==> PackAll(cs)[s].u != 0
    {
      PackBitsNonzero(cs[s].u);
    }
  }

  /** Vectors of length n pack to values below 2^n. */
  lemma PackAllFits(cs: seq<Component>, n: nat)
    requires Width(cs, n)
    ensures FitsWidth(PackAll(cs), n)
  {
    forall s | 0 <= s < |cs|
      ensures TermFits(PackAll(cs)[s], n)
    {
      PackBitsWidth(cs[s].u);
      PackBitsWidth(cs[s].v);
      PackBitsWidth(cs[s].w);
    }
  }

  /** Kept terms are input terms, so they fit whatever the input fits. */
  lemma DropDeadFits(ts: seq<Term>, n: nat)
    requires FitsWidth(ts, n)
    ensures FitsWidth(DropDead(ts), n)
  {
    var r := DropDead(ts);
    DropDeadExact(ts);
    forall s | 0 <= s < |r|
      ensures TermFits(r[s], n)
    {
      assert multiset(r)[r[s]] > 0;
      assert r[s] in ts;
    }
  }

  /** Unpacking all-nonzero terms that fit in n bits gives non-empty components. */
  lemma UnpackNonEmpty(ts: seq<Term>, n: nat)
    requires FitsWidth(ts, n)
    requires forall s :: 0 <= s < |ts| ==> AllNonzero(ts[s])
    ensures forall s :: 0 <= s < |ts| ==> NonEmpty(UnpackAll(ts, n)[s])
  {
    forall s | 0 <= s < |ts|
      ensures NonEmpty(UnpackAll(ts, n)[s])
    {
      assert TermFits(ts[s], n);
      UnpackNonzero(n, ts[s].u);
      UnpackNonzero(n, ts[s].v);
      UnpackNonzero(n, ts[s].w);
    }
  }

  /** The editor's tensor of the kept terms equals that of the input whenever
      the worker's terms represent the same tensor as the packed input. */
  lemma ReducedTensor(cs: seq<Component>, ts: seq<Term>, n: nat)
    requires SameTensor(ts, PackAll(cs))
    ensures CalcTensor(n, UnpackAll(DropDead(ts), n)).tensor == CalcTensor(n, cs).tensor
  {
    forall i, j, k | 0 <= i < n && 0 <= j < n && 0 <= k < n
      ensures UCount(UnpackAll(DropDead(ts), n), i, j, k) % 2 == UCount(cs, i, j, k) % 2
    {
      UCountUnpacked(DropDead(ts), n, i, j, k);
      CountDropDead(ts, i, j, k);
      UCountPacked(cs, i, j, k);
      assert Count(ts, i, j, k) % 2 == Count(PackAll(cs), i, j, k) % 2;
    }
    TensorFromParities(n, UnpackAll(DropDead(ts), n), cs);
  }

  /** What the handler reports, given what the descent guarantees about the
      terms `ts` it leaves. */
  lemma HandlerResult(components: seq<Component>, ts: seq<Term>, n: nat, initialRank: nat, finalRank: nat)
    requires |ts| == |components|
    requires SameTensor(ts, PackAll(components))
    requires initialRank == |USlots(PackAll(components))|
    requires finalRank == |USlots(ts)|
    requires forall m: nat :: FitsWidth(PackAll(components), m) ==> FitsWidth(ts, m)
    requires DecidedByU(PackAll(components)) ==>
               && initialRank == |DropDead(PackAll(components))|
               && finalRank == |DropDead(ts)|
    ensures var reduced := UnpackAll(DropDead(ts), n);
            && |reduced| <= |components|
            && |reduced| <= finalRank
            && CalcTensor(n, reduced).tensor == CalcTensor(n, components).tensor
            && initialRank == |ULive(components)|
            && (Width(components, n) ==> forall k :: 0 <= k < |reduced| ==> NonEmpty(reduced[k]))
            && (DecidedByU(PackAll(components)) ==>
                  initialRank == NonEmptyCount(components) && finalRank == |reduced|)
  {
    ULiveSlots(components);
    KeptAtMostU(ts);
    ReducedTensor(components, ts, n);
    if Width(components, n) {
      PackAllFits(components, n);
      DropDeadFits(ts, n);
      UnpackNonEmpty(DropDead(ts), n);
    }
    if DecidedByU(PackAll(components)) {
      NonEmptyCountIsKept(components);
    }
  }

  /** The scheme the worker builds from the components it is sent. */
  function Submitted(cs: seq<Component>): (r: Scheme)
    ensures Inv(r) && r.terms == PackAll(cs)
    ensures LiveByU(r)
  {
    var flat := ComponentsToFlat(cs);
    assert |flat| % 3 == 0;
    UnflattenFlatten(PackAll(cs));
    Build(flat)
  }

  /** `onmessage`: pack the components, run the descent, drop the terms with
      a zero component and unpack the rest to width n. */
  method OnMessage(components: seq<Component>, n: nat, flipLim: nat, draw: nat -> Draw)
    returns (reduced: seq<Component>, initialRank: nat, finalRank: nat)
    ensures var r := Descend(Submitted(components), draw, 0, flipLim);
            && reduced == UnpackAll(DropDead(r.0.terms), n)
            && finalRank == Rank(r.0)
    ensures |reduced| <= |components|
    ensures Width(reduced, n)
    ensures CalcTensor(n, reduced).tensor == CalcTensor(n, components).tensor
    ensures initialRank == |ULive(components)|
    ensures |reduced| <= finalRank <= initialRank
    ensures Width(components, n) ==> forall k :: 0 <= k < |reduced| ==> NonEmpty(reduced[k])
    ensures DecidedByU(PackAll(components)) ==>
              initialRank == NonEmptyCount(components) && finalRank == |reduced|
  {
    var flat := ComponentsToFlat(components);
    assert |flat| % 3 == 0;
    assert Unflatten(flat) == PackAll(components) by {
      UnflattenFlatten(PackAll(components));
    }
    var data, ir, fr;
    ghost var flips;
    data, ir, fr, flips := RunDescent(flat, flipLim, draw);
    reduced := KeepAndUnpack(data, n);
    initialRank, finalRank := ir, fr;
    HandlerResult(components, Unflatten(data), n, ir, fr);
  }

  /** A term with u set but v empty: the worker counts it in its initial rank,
      the editor does not count it, and the filter drops it when no flip has
      touched it. */
  lemma HalfEmptyTermCounted()
    ensures var cs := [Tri([1], [0], [1])];
            && |ULive(cs)| == 1
            && NonEmptyCount(cs) == 0
            && |DropDead(PackAll(cs))| == 0
  {
    var cs: seq<Component> := [Tri([1], [0], [1])];
    assert ULive(cs) == {0} by {
      assert AnySet(cs[0].u) by { assert cs[0].u[0] == 1; }
    }
    assert !AnySet(cs[0].v);
    NonEmptyCountIsKept(cs);
  }

  /** Two components of width 2; the first has an empty v. */
  const HalfFilled: seq<Component> := [Tri([1, 0], [0, 0], [1, 0]), Tri([1, 0], [1, 0], [0, 1])]

  lemma HalfFilledPacked()
    ensures PackAll(HalfFilled) == [Tri(1, 0, 1), Tri(1, 1, 2)]
  {
    assert [1, 0][1..] == [0] && [0, 0][1..] == [0] && [0, 1][1..] == [1];
    assert PackBits([0]) == 0 && PackBits([1]) == 1;
  }

  lemma HalfFilledScheme()
    ensures Submitted(HalfFilled) == HalfFilledBuilt()
  {
    HalfFilledPacked();
    var ts := [Tri(1, 0, 1), Tri(1, 1, 2)];
    var flat := ComponentsToFlat(HalfFilled);
    assert |flat| / 3 == 2;
    assert Unflatten(flat) == ts;
    HalfFilledBuild();
  }

  function HalfFilledBuilt(): Scheme
  {
    Scheme([Tri(1, 0, 1), Tri(1, 1, 2)],
      Tri(CompIndex(map[1 := [0, 1]], KeyedList([1], map[1 := 0])),
          CompIndex(map[1 := [1]], EmptyKeyed),
          CompIndex(map[1 := [0], 2 := [1]], EmptyKeyed)),
      KeyedList([0, 1], map[0 := 0, 1 := 1]))
  }

  /** The constructor after the first slot of `HalfFilled`. */
  function HalfFilledFirst(): Scheme
  {
    Scheme([Tri(1, 0, 1), Tri(1, 1, 2)],
      Tri(CompIndex(map[1 := [0]], EmptyKeyed), EmptyIndex, CompIndex(map[1 := [0]], EmptyKeyed)),
      KeyedList([0], map[0 := 0]))
  }

  lemma HalfFilledBuildFirst()
    ensures BuildUpTo([Tri(1, 0, 1), Tri(1, 1, 2)], 1) == HalfFilledFirst()
  {
  }

  lemma HalfFilledRegister()
    ensures Register(HalfFilledFirst(), 1) == HalfFilledBuilt()
  {
    var s1 := HalfFilledFirst();
    assert [0] + [1] == [0, 1] && [] + [1] == [1];
    assert Add(s1.index.u, 1, 1) == CompIndex(map[1 := [0, 1]], KeyedList([1], map[1 := 0]));
    assert Add(s1.index.v, 1, 1) == CompIndex(map[1 := [1]], EmptyKeyed);
    assert Add(s1.index.w, 1, 2) == CompIndex(map[1 := [0], 2 := [1]], EmptyKeyed);
    assert Push(s1.live, 1) == KeyedList([0, 1], map[0 := 0, 1 := 1]);
  }

  lemma HalfFilledBuild()
    ensures BuildUpTo([Tri(1, 0, 1), Tri(1, 1, 2)], 2) == HalfFilledBuilt()
  {
    HalfFilledBuildFirst();
    HalfFilledRegister();
    var ts := [Tri(1, 0, 1), Tri(1, 1, 2)];
    assert BuildUpTo(ts, 2) == Register(BuildUpTo(ts, 1), 1);
  }

  lemma HalfFilledSample()
    ensures SamplePair(HalfFilledBuilt(), Draw(0, 0, 0)) == Some(Pair(0, 0, 1))
  {
    var sc := HalfFilledBuilt();
    assert Flippables(sc, 0) == 1 && Flippables(sc, 1) == 0 && Flippables(sc, 2) == 0;
    assert PickKind(0, 1, 0, 0) == (0, 0);
    assert OtherIndex(0, 0, 2) == 1;
  }

  lemma HalfFilledFlip()
    ensures FlipTerms([Tri(1, 0, 1), Tri(1, 1, 2)], Pair(0, 0, 1)) == [Tri(1, 1, 1), Tri(1, 1, 3)]
  {
    assert Xor(0, 1) == 1;
    assert Xor(1, 2) == 2 * Xor(0, 1) + 1 == 3;
  }

  /** A zero XOR lowers the rank only when it replaces a nonzero value. Two
      half-filled terms flipped on u: the XOR of their empty v's is zero but
      sets nothing, so slot 0 is unchanged and slot 1 stays half-filled with
      a new w; neither slot is zeroed, and the rank stays. */
  lemma HalfEmptyTermFlipped()
    ensures var ts, p := [Tri(1, 0, 1), Tri(1, 0, 2)], Pair(0, 0, 1);
            && NewNext(ts, p) == 0
            && !Kills(ts[0], Next(0), NewNext(ts, p))
            && !Kills(ts[1], Prev(0), NewPrev(ts, p))
            && FlipTerms(ts, p) == [Tri(1, 0, 1), Tri(1, 0, 3)]
  {
    assert Xor(0, 0) == 0;
    assert Xor(0, 1) == 1;
    assert Xor(1, 2) == 2 * Xor(0, 1) + 1 == 3;
  }

  /** The third fate of a half-filled term: a flip zeroes it. Two equal
      half-filled terms flipped on u have equal w's, so slot 1 takes w = 0
      and is zeroed, which lowers the rank by one. */
  lemma HalfEmptyTermZeroed()
    ensures var ts, p := [Tri(1, 0, 1), Tri(1, 0, 1)], Pair(0, 0, 1);
            && !Kills(ts[0], Next(0), NewNext(ts, p))
            && Kills(ts[1], Prev(0), NewPrev(ts, p))
            && FlipTerms(ts, p) == [Tri(1, 0, 1), ZeroTerm]
  {
    assert Xor(0, 0) == 0;
    assert Xor(1, 1) == 0;
  }

  /** The one flip of the descent from `HalfFilled`: no component is zeroed,
      so both slots stay live. */
  lemma HalfFilledStep()
    ensures var sc := Submitted(HalfFilled);
            var step := FlipStep(sc, Draw(0, 0, 0));
            && step.0
            && step.1.terms == [Tri(1, 1, 1), Tri(1, 1, 3)]
            && Rank(sc) == 2 && Rank(step.1) == 2
  {
    HalfFilledScheme();
    HalfFilledSample();
    HalfFilledFlip();
    var sc := Submitted(HalfFilled);
    var p := Pair(0, 0, 1);
    assert FlipStep(sc, Draw(0, 0, 0)) == (true, Flip(sc, p));
    assert !Kills(sc.terms[0], 1, NewNext(sc.terms, p));
    assert !Kills(sc.terms[1], 2, NewPrev(sc.terms, p));
  }

  /** The random source that always draws zeros. */
  function ZeroDraw(i: nat): Draw
  {
    Draw(0, 0, 0)
  }

  /** A flip can complete a half-filled component. Of the two components of
      `HalfFilled` the editor counts one, since the first has an empty v.
      Both have u set, so the worker makes both live and flips them on their
      shared u: the first takes v = 0 ^ 1 = 1, the second w = 1 ^ 2 = 3. Both
      results are all-nonzero, so the handler returns two non-empty
      components and reports ranks 2 and 2. */
  lemma HalfEmptyTermCompleted()
    ensures var r := Descend(Submitted(HalfFilled), ZeroDraw, 0, 1);
            && NonEmptyCount(HalfFilled) == 1
            && Rank(Submitted(HalfFilled)) == 2
            && r.1 == 1
            && r.0.terms == [Tri(1, 1, 1), Tri(1, 1, 3)]
            && |UnpackAll(DropDead(r.0.terms), 2)| == 2
            && Rank(r.0) == 2
  {
    var sc := Submitted(HalfFilled);
    HalfFilledStep();
    var step := FlipStep(sc, Draw(0, 0, 0));
    assert Descend(sc, ZeroDraw, 0, 1) == Descend(step.1, ZeroDraw, 1, 1) == (step.1, 1);
    HalfFilledCount();
    HalfFilledKept();
  }

  lemma HalfFilledKept()
    ensures |DropDead([Tri(1, 1, 1), Tri(1, 1, 3)])| == 2
  {
    var ts := [Tri(1, 1, 1), Tri(1, 1, 3)];
    assert ts[1..] == [Tri(1, 1, 3)] && ts[1..][1..] == [];
  }

  lemma HalfFilledCount()
    ensures NonEmptyCount(HalfFilled) == 1
  {
    assert NonEmpty(HalfFilled[1]) by {
      assert HalfFilled[1].u[0] == 1 && HalfFilled[1].v[0] == 1 && HalfFilled[1].w[1] == 1;
    }
    assert !AnySet(HalfFilled[0].v);
    assert HalfFilled[1..] == [HalfFilled[1]];
  }
}

=== FILE: dupindex.dfy ===
/**
 The duplicate index of one component type: `unique[t]`, a map from a nonzero
 value to the slots holding it, and `flippable[t]` with `flippableIdx[t]`, the
 values held by at least two slots together with their positions.
 */
module DupIndex {
  import opened Lists

  datatype CompIndex = CompIndex(unique: map<nat, seq<nat>>, flippable: KeyedList)

  const EmptyIndex := CompIndex(map[], EmptyKeyed)

  /** The shape the index keeps: keys are nonzero, blocks are non-empty and
      repeat no slot, and a value is flippable iff its block has two slots or more. */
  ghost predicate WF(ix: CompIndex)
  {
    && Positioned(ix.flippable)
    && (forall x :: x in ix.unique ==> x != 0 && |ix.unique[x]| >= 1 && NoDup(ix.unique[x]))
    && (forall x :: x in ix.flippable.pos <==> x in ix.unique && |ix.unique[x]| >= 2)
  }

  /** Slot s is registered under value x. */
  predicate Mem(ix: CompIndex, s: nat, x: nat)
  {
    x in ix.unique && s in ix.unique[x]
  }

  /** `_add(s, t, x)`: append s to the block of x; a block reaching two slots
      makes x flippable. Zero is never indexed. */
  function Add(ix: CompIndex, s: nat, x: nat): (r: CompIndex)
    ensures WF(ix) && !Mem(ix, s, x) ==> WF(r)
    ensures forall s', x' :: Mem(r, s', x') <==> Mem(ix, s', x') || (x != 0 && s' == s && x' == x)
  {
    if x == 0 then ix
    else if x !in ix.unique then ix.(unique := ix.unique[x := [s]])
    else
      var arr := ix.unique[x] + [s];
      var r1 := ix.(unique := ix.unique[x := arr]);
      if |arr| == 2 then r1.(flippable := Push(ix.flippable, x)) else r1
  }

  /** `_del(s, t, x)`: swap-remove s from the block of x; a block shrinking to
      one slot stops being flippable, an empty block is dropped. */
  function Del(ix: CompIndex, s: nat, x: nat): (r: CompIndex)
    requires WF(ix)
    ensures WF(r)
    ensures forall s', x' :: Mem(r, s', x') <==> Mem(ix, s', x') && !(s' == s && x' == x)
  {
    if x == 0 || x !in ix.unique then ix
    else
      var arr' := Without(ix.unique[x], s);
      if |arr'| == 1 then ix.(unique := ix.unique[x := arr'], flippable := Remove(ix.flippable, x))
      else if |arr'| == 0 then ix.(unique := ix.unique - {x})
      else ix.(unique := ix.unique[x := arr'])
  }
}

=== FILE: lists.dfy ===
/**
 The array idioms of the index structures: `indexOf`, removal by overwriting a
 position with the last element and popping, and a list paired with a reverse
 position map (the `flippable`/`flippableIdx` and `nonZero`/`nonZeroPos` pairs).
 */
module Lists {

  /** No element occurs twice. */
  ghost predicate NoDup(s: seq<nat>)
  {
    forall i, j :: 0 <= i < j < |s| ==> s[i] != s[j]
  }

  /** `Array.prototype.indexOf`: the first position holding x, or -1. */
  function IndexOf(s: seq<nat>, x: nat): (r: int)
    ensures -1 <= r
    ensures r == -1 <==> x !in s
    ensures 0 <= r ==> r < |s| && s[r] == x && x !in s[..r]
  {
    if |s| == 0 then -1
    else if s[0] == x then 0
    else
      var r := IndexOf(s[1..], x);
      if r == -1 then -1
      else
        assert s[..r + 1] == [s[0]] + s[1..][..r];
        r + 1
  }

  /** `s[p] = s[s.length - 1]; s.pop()`. */
  function SwapRemove(s: seq<nat>, p: nat): (r: seq<nat>)
    requires p < |s|
    ensures |r| == |s| - 1
    ensures forall k :: 0 <= k < |r| ==> r[k] == (if k == p then s[|s| - 1] else s[k])
  {
    s[p := s[|s| - 1]][..|s| - 1]
  }

  /** On a list without repeats, swap-remove drops exactly the element at p,
      also when p is the last position. */
  lemma SwapRemoveMembers(s: seq<nat>, p: nat)
    requires p < |s| && NoDup(s)
    ensures NoDup(SwapRemove(s, p))
    ensures forall x :: x in SwapRemove(s, p) <==> x in s && x != s[p]
  {
    var r := SwapRemove(s, p);
    forall x | x in s && x != s[p]
      ensures x in r
    {
      var k :| 0 <= k < |s| && s[k] == x;
      if k < |s| - 1 {
        assert r[k] == x;
      } else {
        assert r[p] == x;
      }
    }
  }

  /** The `indexOf` then swap-remove sequence of `_del`: drop x from a list
      without repeats, if it is there. */
  function Without(s: seq<nat>, x: nat): (r: seq<nat>)
    requires NoDup(s)
    ensures NoDup(r)
    ensures forall y :: y in r <==> y in s && y != x
    ensures |r| == if x in s then |s| - 1 else |s|
  {
    var p := IndexOf(s, x);
    if p >= 0 then
      SwapRemoveMembers(s, p);
      SwapRemove(s, p)
    else s
  }

  /** The elements of a list, as a set. */
  function Elems(s: seq<nat>): set<nat>
  {
    set x | x in s
  }

  /** A list without repeats has as many distinct elements as entries. */
  lemma {:induction false} DistinctCard(s: seq<nat>)
    requires NoDup(s)
    ensures |Elems(s)| == |s|
  {
    if |s| > 0 {
      var t := s[..|s| - 1];
      var last := s[|s| - 1];
      assert NoDup(t);
      DistinctCard(t);
      assert s == t + [last];
      assert Elems(s) == Elems(t) + {last};
    }
  }

  /** A list with a reverse position map (`list` with `idxMap`). */
  datatype KeyedList = KeyedList(items: seq<nat>, pos: map<nat, nat>)

  const EmptyKeyed := KeyedList([], map[])

  /** The position map holds exactly the listed elements, each at its position. */
  ghost predicate Positioned(kl: KeyedList)
  {
    && (forall x :: x in kl.pos <==> x in kl.items)
    && (forall k :: 0 <= k < |kl.items| ==> kl.pos[kl.items[k]] == k)
  }

  lemma PositionedNoDup(kl: KeyedList)
    requires Positioned(kl)
    ensures NoDup(kl.items)
  {
    forall i, j | 0 <= i < j < |kl.items|
      ensures kl.items[i] != kl.items[j]
    {
      assert kl.pos[kl.items[i]] == i && kl.pos[kl.items[j]] == j;
    }
  }

  /** `idxMap.set(x, list.length); list.push(x)`. */
  function Push(kl: KeyedList, x: nat): (r: KeyedList)
    ensures |r.items| == |kl.items| + 1
    ensures r.items[..|kl.items|] == kl.items && r.items[|kl.items|] == x
    ensures Positioned(kl) && x !in kl.pos ==>
              Positioned(r) && forall y :: y in r.pos <==> y in kl.pos || y == x
  {
    KeyedList(kl.items + [x], kl.pos[x := |kl.items|])
  }

  /** Swap-remove of x through the position map; a no-op when x is absent
      (`if (i !== undefined)`). */
  function Remove(kl: KeyedList, x: nat): (r: KeyedList)
    requires Positioned(kl)
    ensures Positioned(r)
    ensures forall y :: y in r.pos <==> y in kl.pos && y != x
    ensures |r.items| == if x in kl.pos then |kl.items| - 1 else |kl.items|
    ensures x !in kl.pos ==> r == kl
    ensures x in kl.pos ==> r.items == SwapRemove(kl.items, kl.pos[x])
  {
    if x !in kl.pos then kl
    else
      var i := kl.pos[x];
      var last := kl.items[|kl.items| - 1];
      var r := KeyedList(SwapRemove(kl.items, i), kl.pos[last := i] - {x});
      PositionedNoDup(kl);
      SwapRemoveMembers(kl.items, i);
      r
  }

  /** Removing the entry at p removes one copy of it from the multiset. */
  lemma RemoveAt<T>(s: seq<T>, p: nat)
    requires p < |s|
    ensures multiset(s[..p] + s[p + 1..]) == multiset(s) - multiset{s[p]}
  {
    assert s == s[..p] + [s[p]] + s[p + 1..];
    assert multiset(s) == multiset(s[..p]) + multiset{s[p]} + multiset(s[p + 1..]);
  }

  /** The head of a matches some entry of a permutation b, and the tails
      left after removing both are permutations of each other. */
  lemma MatchHead<T>(a: seq<T>, b: seq<T>) returns (p: nat)
    requires |a| > 0 && multiset(a) == multiset(b)
    ensures p < |b| && b[p] == a[0]
    ensures multiset(a[1..]) == multiset(b[..p] + b[p + 1..])
  {
    assert a[0] in multiset(a);
    assert a[0] in multiset(b);
    p :| 0 <= p < |b| && b[p] == a[0];
    RemoveAt(b, p);
    RemoveAt(a, 0);
    calc {
      multiset(a[1..]);
      { assert a[..0] + a[1..] == a[1..]; }
      multiset(a[..0] + a[1..]);
      multiset(a) - multiset{a[0]};
      multiset(b) - multiset{b[p]};
      multiset(b[..p] + b[p + 1..]);
    }
  }
}

=== FILE: sampler.dfy ===
/**
 `_samplePair`: pick a component type weighted by its number of flippable
 values, a flippable value of that type, and two distinct slots of its block.
 The random numbers are passed in; `Math.floor(Math.random() * b)` becomes
 `r % b`, which reaches every index below b.
 */
module Sampler {
  import opened Lists
  import opened Terms
  import opened DupIndex
  import opened FlipScheme

  datatype Option<T> = None | Some(value: T)

  /** The three random numbers one call of `_samplePair` consumes. */
  datatype Draw = Draw(x: nat, i1: nat, i2: nat)

  /** The number of flippable values of component type c. */
  function Flippables(sc: Scheme, c: Comp): nat
  {
    |sc.index.Get(c).flippable.items|
  }

  function TotalFlippable(sc: Scheme): nat
  {
    Flippables(sc, 0) + Flippables(sc, 1) + Flippables(sc, 2)
  }

  /** No value is held by two live slots in any component. */
  ghost predicate NoCandidate(sc: Scheme)
  {
    forall c: Comp, x: nat, s1: nat, s2: nat ::
      s1 != s2 && Mem(sc.index.Get(c), s1, x) ==> !Mem(sc.index.Get(c), s2, x)
  }

  /** The offset of component type c when the three flippable lists are laid
      end to end. */
  function Base(c: Comp, s0: nat, s1: nat): nat
  {
    if c == 0 then 0 else if c == 1 then s0 else s0 + s1
  }

  function Size(c: Comp, s0: nat, s1: nat, s2: nat): nat
  {
    if c == 0 then s0 else if c == 1 then s1 else s2
  }

  /** The choice of type and position from one draw below s0 + s1 + s2:
      the draws are split into three consecutive ranges, one per type. */
  function PickKind(x: nat, s0: nat, s1: nat, s2: nat): (r: (Comp, nat))
    requires x < s0 + s1 + s2
    ensures r.1 < Size(r.0, s0, s1, s2)
    ensures x == Base(r.0, s0, s1) + r.1
  {
    if x < s0 then (0, x) else if x < s0 + s1 then (1, x - s0) else (2, x - s0 - s1)
  }

  /** Every (type, position) pair is chosen by some draw, so type t is chosen
      by exactly as many draws as it has flippable values. */
  lemma PickKindCovers(c: Comp, off: nat, s0: nat, s1: nat, s2: nat)
    requires off < Size(c, s0, s1, s2)
    ensures Base(c, s0, s1) + off < s0 + s1 + s2
    ensures PickKind(Base(c, s0, s1) + off, s0, s1, s2) == (c, off)
  {
  }

  /** The second index: a draw below len - 1, bumped past i1. */
  function OtherIndex(i1: nat, d: nat, len: nat): (i2: nat)
    requires i1 < len && len >= 2
    ensures i2 < len && i2 != i1
  {
    var i := d % (len - 1);
    if i >= i1 then i + 1 else i
  }

  /** Every index other than i1 is reachable as the second index. */
  lemma OtherIndexCovers(i1: nat, j: nat, len: nat)
    requires i1 < len && j < len && j != i1
    ensures OtherIndex(i1, if j < i1 then j else j - 1, len) == j
  {
  }

  function SamplePair(sc: Scheme, d: Draw): (r: Option<Pair>)
    ensures Inv(sc) ==> (r.None? <==> TotalFlippable(sc) == 0)
    ensures Inv(sc) && r.Some? ==> ValidPair(sc, r.value)
    ensures Inv(sc) && r.Some? ==>
              sc.terms[r.value.j1].Get(r.value.kind) in sc.index.Get(r.value.kind).flippable.pos
  {
    var s0, s1, s2 := Flippables(sc, 0), Flippables(sc, 1), Flippables(sc, 2);
    var total := s0 + s1 + s2;
    if total == 0 then None
    else
      var (kind, off) := PickKind(d.x % total, s0, s1, s2);
      var ix := sc.index.Get(kind);
      var val := ix.flippable.items[off];
      if val !in ix.unique || |ix.unique[val]| < 2 then
        assert Inv(sc) ==> false by {
          if Inv(sc) {
            FlippableHasBlock(sc, kind, off);
          }
        }
        None
      else
        var block := ix.unique[val];
        var i1 := d.i1 % |block|;
        var i2 := OtherIndex(i1, d.i2, |block|);
        var r := Pair(kind, block[i1], block[i2]);
        assert Inv(sc) ==> ValidPair(sc, r) && sc.terms[r.j1].Get(kind) == val && val in ix.flippable.pos by {
          if Inv(sc) {
            BlockPair(sc, kind, val, i1, i2);
          }
        }
        Some(r)
  }

  /** Every ordered pair of distinct slots in the block of every flippable
      value is returned for some draw: the one that picks the value's place
      among the three lists laid end to end, the first slot's position, and
      the second's position with the bump undone. The block exists whenever
      the invariant holds (`FlippableHasBlock`). */
  lemma SamplePairCovers(sc: Scheme, c: Comp, off: nat, i1: nat, i2: nat)
    requires off < Flippables(sc, c)
    requires var ix := sc.index.Get(c);
             var x := ix.flippable.items[off];
             && x in ix.unique
             && i1 < |ix.unique[x]| && i2 < |ix.unique[x]| && i1 != i2
    ensures var ix := sc.index.Get(c);
            var block := ix.unique[ix.flippable.items[off]];
            var s0, s1 := Flippables(sc, 0), Flippables(sc, 1);
            SamplePair(sc, Draw(Base(c, s0, s1) + off, i1, if i2 < i1 then i2 else i2 - 1))
              == Some(Pair(c, block[i1], block[i2]))
  {
    var s0, s1, s2 := Flippables(sc, 0), Flippables(sc, 1), Flippables(sc, 2);
    var ix := sc.index.Get(c);
    var block := ix.unique[ix.flippable.items[off]];
    assert off < Size(c, s0, s1, s2);
    PickKindCovers(c, off, s0, s1, s2);
    SmallMod(Base(c, s0, s1) + off, s0 + s1 + s2);
    SmallMod(i1, |block|);
    OtherIndexCovers(i1, i2, |block|);
  }

  /** Under the invariant, a value on the flippable list has a block of two
      slots or more. */
  lemma FlippableHasBlock(sc: Scheme, c: Comp, off: nat)
    requires Inv(sc) && off < Flippables(sc, c)
    ensures var ix := sc.index.Get(c);
            var x := ix.flippable.items[off];
            x in ix.unique && |ix.unique[x]| >= 2
  {
    InvIndexed(sc, c);
    var ix := sc.index.Get(c);
    assert ix.flippable.items[off] in ix.flippable.pos;
  }

  /** Two distinct positions of a block name a pair the flip accepts. */
  lemma BlockPair(sc: Scheme, c: Comp, x: nat, i1: nat, i2: nat)
    requires Inv(sc)
    requires x in sc.index.Get(c).unique
    requires i1 < |sc.index.Get(c).unique[x]| && i2 < |sc.index.Get(c).unique[x]| && i1 != i2
    ensures var block := sc.index.Get(c).unique[x];
            && ValidPair(sc, Pair(c, block[i1], block[i2]))
            && sc.terms[block[i1]].Get(c) == x
            && x in sc.index.Get(c).flippable.pos
  {
    InvIndexed(sc, c);
    var ix := sc.index.Get(c);
    var block := ix.unique[x];
    assert Mem(ix, block[i1], x) && Mem(ix, block[i2], x);
    assert NoDup(block);
    PairCard(block, block[i1], block[i2]);
  }

  /** With the invariant, an empty sample means no value is shared by two live
      slots in any component: the search is exhausted. */
  lemma NoneMeansExhausted(sc: Scheme, d: Draw)
    requires Inv(sc) && SamplePair(sc, d).None?
    ensures NoCandidate(sc)
  {
    forall c: Comp, x: nat, s1: nat, s2: nat | s1 != s2 && Mem(sc.index.Get(c), s1, x)
      ensures !Mem(sc.index.Get(c), s2, x)
    {
      InvIndexed(sc, c);
      var ix := sc.index.Get(c);
      if Mem(ix, s2, x) {
        PairCard(ix.unique[x], s1, s2);
        assert false;
      }
    }
  }

  /** `r % b` is r itself for a draw already below b. */
  lemma SmallMod(r: nat, b: nat)
    requires r < b
    ensures r % b == r
  {
  }

  /** A list holding two different elements has at least two entries. */
  lemma PairCard(s: seq<nat>, a: nat, b: nat)
    requires a in s && b in s && a != b
    ensures |s| >= 2
  {
  }
}

=== FILE: scheme.dfy ===
/**
 The `Scheme` of the descent engine: the terms of a decomposition addressed by
 a fixed slot number, one duplicate index per component type, and the list of
 live slots with its position map (`nonZero`, `nonZeroPos`). The worker's
 `Scheme` mutates one object in place; here every operation returns the next
 state.
 */
module FlipScheme {
  import opened Bits
  import opened Lists
  import opened Terms
  import opened DupIndex
  import opened Tensor

  datatype Scheme = Scheme(terms: seq<Term>, index: Tri<CompIndex>, live: KeyedList)

  /** A flip candidate: two slots sharing their value in component `kind`. */
  datatype Pair = Pair(kind: Comp, j1: nat, j2: nat)

  /** Slot s is in `nonZero`. */
  predicate Live(sc: Scheme, s: nat)
  {
    s in sc.live.pos
  }

  /** `rank()`: the number of live slots. */
  function Rank(sc: Scheme): nat
  {
    |sc.live.items|
  }

  /** Slot s is live and holds the nonzero value x in component c. */
  ghost predicate Holds(terms: seq<Term>, live: KeyedList, c: Comp, s: nat, x: nat)
  {
    s in live.pos && s < |terms| && terms[s].Get(c) == x && x != 0
  }

  /** The index of component c registers exactly the live slots under their
      nonzero value in component c. */
  ghost predicate Indexed(ix: CompIndex, terms: seq<Term>, live: KeyedList, c: Comp)
  {
    WF(ix) && forall s, x :: Mem(ix, s, x) <==> Holds(terms, live, c, s, x)
  }

  /** The invariant every reachable scheme keeps. */
  ghost predicate Inv(sc: Scheme)
  {
    && Positioned(sc.live)
    && (forall s :: s in sc.live.pos ==> s < |sc.terms|)
    && Indexed(sc.index.u, sc.terms, sc.live, 0)
    && Indexed(sc.index.v, sc.terms, sc.live, 1)
    && Indexed(sc.index.w, sc.terms, sc.live, 2)
  }

  lemma InvIndexed(sc: Scheme, c: Comp)
    requires Inv(sc)
    ensures Indexed(sc.index.Get(c), sc.terms, sc.live, c)
  {
  }

  /** A pair the sampler can return: two distinct live slots holding the same
      nonzero value in component `kind`. */
  ghost predicate ValidPair(sc: Scheme, p: Pair)
  {
    && p.j1 < |sc.terms| && p.j2 < |sc.terms| && p.j1 != p.j2
    && Live(sc, p.j1) && Live(sc, p.j2)
    && sc.terms[p.j1].Get(p.kind) == sc.terms[p.j2].Get(p.kind) != 0
  }

  // ---------------------------------------------------------------------------
  // Construction

  /** Mark slot s live and register its three components. */
  function Register(sc: Scheme, s: nat): Scheme
    requires s < |sc.terms|
  {
    var t := sc.terms[s];
    sc.(live := Push(sc.live, s),
        index := Tri(Add(sc.index.u, s, t.u), Add(sc.index.v, s, t.v), Add(sc.index.w, s, t.w)))
  }

  lemma IndexedRegister(ix: CompIndex, terms: seq<Term>, live: KeyedList, c: Comp, s: nat)
    requires Indexed(ix, terms, live, c) && s < |terms| && s !in live.pos
    requires Positioned(live)
    ensures Indexed(Add(ix, s, terms[s].Get(c)), terms, Push(live, s), c)
  {
  }

  /** Registering a slot that is not yet live keeps the invariant and makes it live. */
  lemma RegisterKeepsInv(sc: Scheme, s: nat)
    requires Inv(sc) && s < |sc.terms| && !Live(sc, s)
    ensures Inv(Register(sc, s))
    ensures forall q: nat :: Live(Register(sc, s), q) <==> Live(sc, q) || q == s
  {
    IndexedRegister(sc.index.u, sc.terms, sc.live, 0, s);
    IndexedRegister(sc.index.v, sc.terms, sc.live, 1, s);
    IndexedRegister(sc.index.w, sc.terms, sc.live, 2, s);
  }

  /** The scheme before the constructor's loop: nothing live, nothing indexed. */
  function Empty(ts: seq<Term>): Scheme
  {
    Scheme(ts, Tri(EmptyIndex, EmptyIndex, EmptyIndex), EmptyKeyed)
  }

  lemma EmptyInv(ts: seq<Term>)
    ensures Inv(Empty(ts))
    ensures forall s: nat :: !Live(Empty(ts), s)
  {
  }

  /** The constructor's loop after its first m slots: a slot is live iff its u
      component is nonzero. */
  function BuildUpTo(ts: seq<Term>, m: nat): (r: Scheme)
    requires m <= |ts|
    ensures Inv(r) && r.terms == ts
    ensures forall s: nat :: Live(r, s) <==> s < m && ts[s].u != 0
    decreases m
  {
    if m == 0 then
      EmptyInv(ts);
      Empty(ts)
    else
      var sc := BuildUpTo(ts, m - 1);
      if ts[m - 1].u != 0 then
        RegisterKeepsInv(sc, m - 1);
        Register(sc, m - 1)
      else sc
  }

  /** `new Scheme(dataFlat)`. */
  function Build(flat: seq<nat>): (r: Scheme)
    requires |flat| % 3 == 0
    ensures Inv(r) && r.terms == Unflatten(flat)
    ensures forall s: nat :: Live(r, s) <==> s < |r.terms| && r.terms[s].u != 0
  {
    BuildUpTo(Unflatten(flat), |flat| / 3)
  }

  // ---------------------------------------------------------------------------
  // Mutation

  lemma IndexedZeroOut(ix: CompIndex, terms: seq<Term>, live: KeyedList, c: Comp, s: nat,
                       terms': seq<Term>, live': KeyedList)
    requires Indexed(ix, terms, live, c) && s < |terms|
    requires |terms'| == |terms| && forall q :: 0 <= q < |terms| && q != s ==> terms'[q] == terms[q]
    requires forall q :: q in live'.pos <==> q in live.pos && q != s
    ensures Indexed(Del(ix, s, terms[s].Get(c)), terms', live', c)
  {
  }

  /** `_zeroOutTerm(s)`: deregister and zero all three components, and drop s
      from the live list. */
  function ZeroOutTerm(sc: Scheme, s: nat): (r: Scheme)
    requires Inv(sc) && s < |sc.terms|
    ensures Inv(r)
    ensures r.terms == sc.terms[s := ZeroTerm]
    ensures forall q :: Live(r, q) <==> Live(sc, q) && q != s
    ensures Rank(r) == if Live(sc, s) then Rank(sc) - 1 else Rank(sc)
  {
    var t := sc.terms[s];
    var terms' := sc.terms[s := ZeroTerm];
    var live' := Remove(sc.live, s);
    IndexedZeroOut(sc.index.u, sc.terms, sc.live, 0, s, terms', live');
    IndexedZeroOut(sc.index.v, sc.terms, sc.live, 1, s, terms', live');
    IndexedZeroOut(sc.index.w, sc.terms, sc.live, 2, s, terms', live');
    Scheme(terms', Tri(Del(sc.index.u, s, t.u), Del(sc.index.v, s, t.v), Del(sc.index.w, s, t.w)), live')
  }

  lemma IndexedReplace(ix: CompIndex, terms: seq<Term>, live: KeyedList, c: Comp, s: nat, x: nat)
    requires Indexed(ix, terms, live, c) && s < |terms| && s in live.pos
    requires x != 0 && x != terms[s].Get(c)
    ensures Indexed(Add(Del(ix, s, terms[s].Get(c)), s, x), terms[s := terms[s].With(c, x)], live, c)
  {
    var ix1 := Del(ix, s, terms[s].Get(c));
    assert !Mem(ix1, s, x);
  }

  lemma IndexedOther(ix: CompIndex, terms: seq<Term>, live: KeyedList, c: Comp, d: Comp, s: nat, x: nat)
    requires Indexed(ix, terms, live, d) && s < |terms| && c != d
    ensures Indexed(ix, terms[s := terms[s].With(c, x)], live, d)
  {
  }

  /** Setting component c of t to x kills the term: x is a new zero. */
  predicate Kills(t: Term, c: Comp, x: nat)
  {
    x == 0 && t.Get(c) != 0
  }

  /** A term after `_set(j, c, x)` as far as the terms are concerned: unchanged
      when x is already there, all zero when x is a new zero, else updated. */
  function SetTerm(t: Term, c: Comp, x: nat): Term
  {
    if Kills(t, c, x) then ZeroTerm else t.With(c, x)
  }

  /** `_set(s, c, x)`. Setting the value a component already has does nothing;
      setting zero kills the whole term; otherwise the one component changes
      and its registration moves from the old value to the new one. */
  function SetComp(sc: Scheme, s: nat, c: Comp, x: nat): (r: Scheme)
    requires Inv(sc) && s < |sc.terms|
    ensures r.terms == sc.terms[s := SetTerm(sc.terms[s], c, x)]
    ensures x == sc.terms[s].Get(c) ==> r == sc
    ensures x != sc.terms[s].Get(c) && x == 0 ==>
              r.terms[s] == ZeroTerm && r == ZeroOutTerm(sc, s)
    ensures x != 0 ==> r.live == sc.live
    ensures forall q: nat :: Live(r, q) <==> Live(sc, q) && !(q == s && Kills(sc.terms[s], c, x))
    ensures Rank(r) == if Live(sc, s) && Kills(sc.terms[s], c, x) then Rank(sc) - 1 else Rank(sc)
    ensures Live(sc, s) ==> Inv(r)
  {
    var prev := sc.terms[s].Get(c);
    if prev == x then sc
    else if x == 0 then ZeroOutTerm(sc, s)
    else
      var ix := Add(Del(sc.index.Get(c), s, prev), s, x);
      var r := Scheme(sc.terms[s := sc.terms[s].With(c, x)], sc.index.With(c, ix), sc.live);
      assert Live(sc, s) ==> Inv(r) by {
        if Live(sc, s) {
          InvIndexed(sc, c);
          IndexedReplace(sc.index.Get(c), sc.terms, sc.live, c, s, x);
          forall d: Comp | d != c
            ensures Indexed(r.index.Get(d), r.terms, r.live, d)
          {
            InvIndexed(sc, d);
            IndexedOther(sc.index.Get(d), sc.terms, sc.live, c, d, s, x);
          }
          assert r.index.Get(0) == r.index.u && r.index.Get(1) == r.index.v && r.index.Get(2) == r.index.w;
        }
      }
      r
  }

  // ---------------------------------------------------------------------------
  // The flip move

  /** The value slot j1 has in component Next(kind) after a flip, and slot j2
      in component Prev(kind): the XOR of the pair's two values there. */
  function NewNext(ts: seq<Term>, p: Pair): nat
    requires p.j1 < |ts| && p.j2 < |ts|
  {
    Xor(ts[p.j1].Get(Next(p.kind)), ts[p.j2].Get(Next(p.kind)))
  }

  function NewPrev(ts: seq<Term>, p: Pair): nat
    requires p.j1 < |ts| && p.j2 < |ts|
  {
    Xor(ts[p.j1].Get(Prev(p.kind)), ts[p.j2].Get(Prev(p.kind)))
  }

  /** A flip on the bare list of terms, without any index: slot j1 takes the
      XOR in component Next(kind), slot j2 the XOR in component Prev(kind),
      and a slot whose component becomes zero is zeroed entirely. */
  function FlipTerms(ts: seq<Term>, p: Pair): seq<Term>
    requires p.j1 < |ts| && p.j2 < |ts|
  {
    ts[p.j1 := SetTerm(ts[p.j1], Next(p.kind), NewNext(ts, p))]
      [p.j2 := SetTerm(ts[p.j2], Prev(p.kind), NewPrev(ts, p))]
  }


  /** The flip of `flip()` once a pair has been drawn: both XORs are read
      first, then j1's next component and j2's previous one are set. */
  function Flip(sc: Scheme, p: Pair): (r: Scheme)
    requires Inv(sc) && ValidPair(sc, p)
    ensures Inv(r)
    ensures r.terms == FlipTerms(sc.terms, p)
    ensures forall q: nat :: Live(r, q) <==>
              && Live(sc, q)
              && !(q == p.j1 && Kills(sc.terms[p.j1], Next(p.kind), NewNext(sc.terms, p)))
              && !(q == p.j2 && Kills(sc.terms[p.j2], Prev(p.kind), NewPrev(sc.terms, p)))
    ensures Rank(r) == Rank(sc) - (if Kills(sc.terms[p.j1], Next(p.kind), NewNext(sc.terms, p)) then 1 else 0)
                                - (if Kills(sc.terms[p.j2], Prev(p.kind), NewPrev(sc.terms, p)) then 1 else 0)
  {
    var tn, tp := Next(p.kind), Prev(p.kind);
    var sc1 := SetComp(sc, p.j1, tn, NewNext(sc.terms, p));
    SetComp(sc1, p.j2, tp, NewPrev(sc.terms, p))
  }

  /** What a flip does to the terms: slot j1 keeps its shared component and
      its Prev(kind) component and takes the XOR in Next(kind), unless it is
      zeroed, which happens only when that XOR is zero; slot j2 likewise with
      Next and Prev exchanged; every other slot is unchanged. */
  lemma FlipTermsShape(ts: seq<Term>, p: Pair)
    requires p.j1 < |ts| && p.j2 < |ts| && p.j1 != p.j2
    ensures |FlipTerms(ts, p)| == |ts|
    ensures forall q :: 0 <= q < |ts| && q != p.j1 && q != p.j2 ==> FlipTerms(ts, p)[q] == ts[q]
    ensures var t, t' := ts[p.j1], FlipTerms(ts, p)[p.j1];
            && (t' == ZeroTerm ==> NewNext(ts, p) == 0)
            && (t' == ZeroTerm
                || (&& t'.Get(p.kind) == t.Get(p.kind)
                    && t'.Get(Prev(p.kind)) == t.Get(Prev(p.kind))
                    && t'.Get(Next(p.kind)) == NewNext(ts, p)))
    ensures var t, t' := ts[p.j2], FlipTerms(ts, p)[p.j2];
            && (t' == ZeroTerm ==> NewPrev(ts, p) == 0)
            && (t' == ZeroTerm
                || (&& t'.Get(p.kind) == t.Get(p.kind)
                    && t'.Get(Next(p.kind)) == t.Get(Next(p.kind))
                    && t'.Get(Prev(p.kind)) == NewPrev(ts, p)))
  {
    var kind := p.kind;
    assert Next(kind) != kind && Prev(kind) != kind && Next(kind) != Prev(kind);
  }

  /** Flips preserve the represented tensor, also when they kill a term. */
  lemma FlipKeepsTensor(sc: Scheme, p: Pair)
    requires Inv(sc) && ValidPair(sc, p)
    ensures SameTensor(Flip(sc, p).terms, sc.terms)
  {
    FlipTermsKeepTensor(sc.terms, p);
  }

  /** The flip on bare terms keeps the tensor whenever the two slots are
      distinct and agree in component `kind`. */
  lemma FlipTermsKeepTensor(ts: seq<Term>, p: Pair)
    requires p.j1 < |ts| && p.j2 < |ts| && p.j1 != p.j2
    requires ts[p.j1].Get(p.kind) == ts[p.j2].Get(p.kind)
    ensures SameTensor(FlipTerms(ts, p), ts)
  {
    forall i: nat, j: nat, k: nat
      ensures Count(FlipTerms(ts, p), i, j, k) % 2 == Count(ts, i, j, k) % 2
    {
      FlipCellParity(ts, p, i, j, k);
    }
  }

  /** One cell of the tensor across a flip of slots j1 and j2. */
  lemma FlipCellParity(ts: seq<Term>, p: Pair, i: nat, j: nat, k: nat)
    requires p.j1 < |ts| && p.j2 < |ts| && p.j1 != p.j2
    requires ts[p.j1].Get(p.kind) == ts[p.j2].Get(p.kind)
    ensures Count(FlipTerms(ts, p), i, j, k) % 2 == Count(ts, i, j, k) % 2
  {
    var t1, t2 := ts[p.j1], ts[p.j2];
    var x, y := NewNext(ts, p), NewPrev(ts, p);
    var a := SetTerm(t1, Next(p.kind), x);
    var b := SetTerm(t2, Prev(p.kind), y);
    var mid := ts[p.j1 := a];
    CountUpdate(ts, p.j1, a, i, j, k);
    CountUpdate(mid, p.j2, b, i, j, k);
    assert mid[p.j2] == t2;
    assert FlipTerms(ts, p) == mid[p.j2 := b];
    PairParity(t1, t2, p.kind, i, j, k);
    SameParity(Count(FlipTerms(ts, p), i, j, k), Count(ts, i, j, k),
               Contrib(t1, i, j, k) + Contrib(t2, i, j, k), Contrib(a, i, j, k) + Contrib(b, i, j, k));
  }

  /** Adding amounts of equal parity to two sides keeps their parities equal. */
  lemma SameParity(after: nat, before: nat, removed: nat, added: nat)
    requires after + removed == before + added && removed % 2 == added % 2
    ensures after % 2 == before % 2
  {
  }

  /** The two flipped terms together contribute to a cell with the same
      parity as before. */
  lemma PairParity(t1: Term, t2: Term, kind: Comp, i: nat, j: nat, k: nat)
    requires t1.Get(kind) == t2.Get(kind)
    ensures
      var a := SetTerm(t1, Next(kind), Xor(t1.Get(Next(kind)), t2.Get(Next(kind))));
      var b := SetTerm(t2, Prev(kind), Xor(t1.Get(Prev(kind)), t2.Get(Prev(kind))));
      (Contrib(a, i, j, k) + Contrib(b, i, j, k)) % 2 == (Contrib(t1, i, j, k) + Contrib(t2, i, j, k)) % 2
  {
    var x, y := Xor(t1.Get(Next(kind)), t2.Get(Next(kind))), Xor(t1.Get(Prev(kind)), t2.Get(Prev(kind)));
    SetTermContrib(t1, Next(kind), x, i, j, k);
    SetTermContrib(t2, Prev(kind), y, i, j, k);
    FlipAlgebra(t1, t2, kind, i, j, k);
  }

  /** Killing a term contributes what setting the zero value would have. */
  lemma SetTermContrib(t: Term, c: Comp, x: nat, i: nat, j: nat, k: nat)
    ensures Has(SetTerm(t, c, x), i, j, k) == Has(t.With(c, x), i, j, k)
  {
    ZeroHasNoBits(i);
    ZeroHasNoBits(j);
    ZeroHasNoBits(k);
  }

  /** A flip never raises the rank and lowers it by at most two; a dead slot
      stays dead. */
  lemma FlipRank(sc: Scheme, p: Pair)
    requires Inv(sc) && ValidPair(sc, p)
    ensures Rank(sc) - 2 <= Rank(Flip(sc, p)) <= Rank(sc)
    ensures forall q: nat :: Live(Flip(sc, p), q) ==> Live(sc, q)
  {
  }

  // ---------------------------------------------------------------------------
  // Live slots and the result filter

  /** Live slots are exactly those whose three components are nonzero. */
  ghost predicate Tidy(sc: Scheme)
  {
    forall s: nat :: s < |sc.terms| ==> (Live(sc, s) <==> AllNonzero(sc.terms[s]))
  }

  /** Each input term is either all-nonzero or has a zero u, so the
      constructor's test on u alone agrees with the all-nonzero test. */
  ghost predicate DecidedByU(ts: seq<Term>)
  {
    forall s :: 0 <= s < |ts| ==> (ts[s].u != 0 ==> AllNonzero(ts[s]))
  }

  lemma BuildTidy(flat: seq<nat>)
    requires |flat| % 3 == 0 && DecidedByU(Unflatten(flat))
    ensures Tidy(Build(flat))
  {
  }

  /** Setting a component of an all-nonzero term keeps it all-nonzero unless it kills it. */
  lemma SetTermNonzero(t: Term, c: Comp, x: nat)
    requires AllNonzero(t)
    ensures AllNonzero(SetTerm(t, c, x)) <==> !Kills(t, c, x)
  {
  }

  /** On a tidy scheme a flip keeps live slots all-nonzero and kills a slot
      exactly when it zeroes one of its components. */
  lemma FlipKeepsTidy(sc: Scheme, p: Pair)
    requires Inv(sc) && ValidPair(sc, p) && Tidy(sc)
    ensures Tidy(Flip(sc, p))
  {
    var r := Flip(sc, p);
    var t1, t2 := sc.terms[p.j1], sc.terms[p.j2];
    var x, y := NewNext(sc.terms, p), NewPrev(sc.terms, p);
    assert AllNonzero(t1) && AllNonzero(t2);
    SetTermNonzero(t1, Next(p.kind), x);
    SetTermNonzero(t2, Prev(p.kind), y);
    forall s: nat | s < |r.terms|
      ensures Live(r, s) <==> AllNonzero(r.terms[s])
    {
      if s == p.j2 {
        assert r.terms[s] == SetTerm(t2, Prev(p.kind), y);
      } else if s == p.j1 {
        assert r.terms[s] == SetTerm(t1, Next(p.kind), x);
      } else {
        assert r.terms[s] == sc.terms[s];
        assert Live(sc, s) <==> AllNonzero(sc.terms[s]);
      }
    }
  }

  /** A slot is live exactly when its u component is nonzero: the
      constructor's test, which every flip keeps. */
  ghost predicate LiveByU(sc: Scheme)
  {
    forall s: nat :: Live(sc, s) <==> s < |sc.terms| && sc.terms[s].u != 0
  }

  /** Setting a component of a term with nonzero u leaves u nonzero unless it
      kills the term. */
  lemma SetTermU(t: Term, c: Comp, x: nat)
    requires t.u != 0
    ensures SetTerm(t, c, x).u != 0 <==> !Kills(t, c, x)
  {
  }

  /** A flip keeps live slots exactly those with a nonzero u, whatever their
      other components hold. */
  lemma FlipKeepsLiveByU(sc: Scheme, p: Pair)
    requires Inv(sc) && ValidPair(sc, p) && LiveByU(sc)
    ensures LiveByU(Flip(sc, p))
  {
    var r := Flip(sc, p);
    var t1, t2 := sc.terms[p.j1], sc.terms[p.j2];
    var x, y := NewNext(sc.terms, p), NewPrev(sc.terms, p);
    assert t1.u != 0 && t2.u != 0;
    SetTermU(t1, Next(p.kind), x);
    SetTermU(t2, Prev(p.kind), y);
    forall s: nat
      ensures Live(r, s) <==> s < |r.terms| && r.terms[s].u != 0
    {
      if s == p.j2 {
        assert r.terms[s] == SetTerm(t2, Prev(p.kind), y);
      } else if s == p.j1 {
        assert r.terms[s] == SetTerm(t1, Next(p.kind), x);
      } else if s < |r.terms| {
        assert r.terms[s] == sc.terms[s];
        assert Live(sc, s) <==> sc.terms[s].u != 0;
      } else {
        assert !Live(sc, s);
      }
    }
  }

  /** On a tidy scheme the rank is the number of terms the result filter keeps. */
  lemma RankIsKept(sc: Scheme)
    requires Inv(sc) && Tidy(sc)
    ensures Rank(sc) == |DropDead(sc.terms)|
  {
    PositionedNoDup(sc.live);
    DistinctCard(sc.live.items);
    assert Elems(sc.live.items) == LiveSlots(sc.terms, |sc.terms|);
    DropDeadCount(sc.terms, |sc.terms|);
    assert sc.terms[..|sc.terms|] == sc.terms;
  }

  // ---------------------------------------------------------------------------
  // Vector width

  /** Every component of every term fits in n bits. */
  ghost predicate FitsWidth(ts: seq<Term>, n: nat)
  {
    forall s :: 0 <= s < |ts| ==> TermFits(ts[s], n)
  }

  predicate TermFits(t: Term, n: nat)
  {
    t.u < Pow2(n) && t.v < Pow2(n) && t.w < Pow2(n)
  }

  lemma SetTermFits(t: Term, c: Comp, x: nat, n: nat)
    requires TermFits(t, n) && x < Pow2(n)
    ensures TermFits(SetTerm(t, c, x), n)
  {
  }

  /** A flip sets no bit at or above the vector width. */
  lemma FlipKeepsWidth(sc: Scheme, p: Pair, n: nat)
    requires Inv(sc) && ValidPair(sc, p) && FitsWidth(sc.terms, n)
    ensures FitsWidth(Flip(sc, p).terms, n)
  {
    FlipTermsKeepWidth(sc.terms, p, n);
  }

  lemma FlipTermsKeepWidth(ts: seq<Term>, p: Pair, n: nat)
    requires p.j1 < |ts| && p.j2 < |ts| && FitsWidth(ts, n)
    ensures FitsWidth(FlipTerms(ts, p), n)
  {
    var t1, t2 := ts[p.j1], ts[p.j2];
    var a := SetTerm(t1, Next(p.kind), NewNext(ts, p));
    var b := SetTerm(t2, Prev(p.kind), NewPrev(ts, p));
    assert TermFits(t1, n) && TermFits(t2, n);
    XorWidth(t1.Get(Next(p.kind)), t2.Get(Next(p.kind)), n);
    XorWidth(t1.Get(Prev(p.kind)), t2.Get(Prev(p.kind)), n);
    SetTermFits(t1, Next(p.kind), NewNext(ts, p), n);
    SetTermFits(t2, Prev(p.kind), NewPrev(ts, p), n);
    UpdateFits(ts, p.j1, a, n);
    UpdateFits(ts[p.j1 := a], p.j2, b, n);
  }

  lemma UpdateFits(ts: seq<Term>, q: nat, t: Term, n: nat)
    requires q < |ts| && FitsWidth(ts, n) && TermFits(t, n)
    ensures FitsWidth(ts[q := t], n)
  {
    var u := ts[q := t];
    forall s | 0 <= s < |u|
      ensures TermFits(u[s], n)
    {
      if s != q {
        assert TermFits(ts[s], n);
      }
    }
  }

}

=== FILE: tensor.dfy ===
/**
 The tensor a decomposition represents. Cell (i, j, k) counts the terms with bit i
 of u, bit j of v and bit k of w all set; the tensor is that count modulo 2. The
 worker's terms are packed values, the editor's components are 0/1 arrays, and
 `calcTensor` also reports a "conflict" cube: cells whose count is positive and
 even, i.e. contributions that cancelled.
 */
module Tensor {
  import opened Bits
  import opened Lists
  import opened Terms

  /** Term t has u_i, v_j and w_k all set. */
  predicate Has(t: Term, i: nat, j: nat, k: nat)
  {
    Bit(t.u, i) && Bit(t.v, j) && Bit(t.w, k)
  }

  function Contrib(t: Term, i: nat, j: nat, k: nat): nat
  {
    if Has(t, i, j, k) then 1 else 0
  }

  /** The number of terms contributing to cell (i, j, k). */
  function Count(ts: seq<Term>, i: nat, j: nat, k: nat): nat
  {
    if |ts| == 0 then 0 else Contrib(ts[0], i, j, k) + Count(ts[1..], i, j, k)
  }

  /** Two term lists represent the same tensor over GF(2). */
  ghost predicate SameTensor(a: seq<Term>, b: seq<Term>)
  {
    forall i: nat, j: nat, k: nat :: Count(a, i, j, k) % 2 == Count(b, i, j, k) % 2
  }

  lemma {:induction false} CountAppend(a: seq<Term>, b: seq<Term>, i: nat, j: nat, k: nat)
    ensures Count(a + b, i, j, k) == Count(a, i, j, k) + Count(b, i, j, k)
    decreases |a|
  {
    if |a| == 0 {
      assert a + b == b;
    } else {
      assert (a + b)[1..] == a[1..] + b;
      CountAppend(a[1..], b, i, j, k);
    }
  }

  /** Replacing one term changes the count by exactly the two terms' contributions. */
  lemma {:induction false} CountUpdate(ts: seq<Term>, p: nat, t: Term, i: nat, j: nat, k: nat)
    requires p < |ts|
    ensures Count(ts[p := t], i, j, k) + Contrib(ts[p], i, j, k) == Count(ts, i, j, k) + Contrib(t, i, j, k)
    decreases p
  {
    if p == 0 {
      assert ts[p := t][1..] == ts[1..];
    } else {
      assert ts[p := t][1..] == ts[1..][p - 1 := t];
      CountUpdate(ts[1..], p - 1, t, i, j, k);
    }
  }

  /** A term with a zero component contributes to no cell. */
  lemma ZeroComponentContributesNothing(t: Term, i: nat, j: nat, k: nat)
    requires !AllNonzero(t)
    ensures !Has(t, i, j, k)
  {
    ZeroHasNoBits(i);
    ZeroHasNoBits(j);
    ZeroHasNoBits(k);
  }

  /** Dropping the terms with a zero component leaves every count unchanged. */
  lemma {:induction false} CountDropDead(ts: seq<Term>, i: nat, j: nat, k: nat)
    ensures Count(DropDead(ts), i, j, k) == Count(ts, i, j, k)
    decreases |ts|
  {
    if |ts| > 0 {
      CountDropDead(ts[1..], i, j, k);
      if AllNonzero(ts[0]) {
        var r := DropDead(ts);
        assert r[0] == ts[0] && r[1..] == DropDead(ts[1..]);
      } else {
        ZeroComponentContributesNothing(ts[0], i, j, k);
        assert DropDead(ts) == DropDead(ts[1..]);
      }
    }
  }

  /** The core identity of a flip. Two terms sharing their component `kind`:
      the first gets the XOR of their next components, the second the XOR of
      their previous components. Cell by cell, the pair contributes the same
      parity before and after. */
  lemma FlipAlgebra(t1: Term, t2: Term, kind: Comp, i: nat, j: nat, k: nat)
    requires t1.Get(kind) == t2.Get(kind)
    ensures (Has(t1, i, j, k) != Has(t2, i, j, k))
         == (Has(t1.With(Next(kind), Xor(t1.Get(Next(kind)), t2.Get(Next(kind)))), i, j, k)
             != Has(t2.With(Prev(kind), Xor(t1.Get(Prev(kind)), t2.Get(Prev(kind)))), i, j, k))
  {
    XorBit(t1.u, t2.u, i);
    XorBit(t1.v, t2.v, j);
    XorBit(t1.w, t2.w, k);
    if kind == 0 {
      assert Next(kind) == 1 && Prev(kind) == 2;
    } else if kind == 1 {
      assert Next(kind) == 2 && Prev(kind) == 0;
    } else {
      assert Next(kind) == 0 && Prev(kind) == 1;
    }
  }

  // ---------------------------------------------------------------------------
  // calcTensor over the editor's components

  /** Component c has u[i], v[j] and w[k] all set. */
  predicate UHas(c: Component, i: nat, j: nat, k: nat)
  {
    InBit(c.u, i) && InBit(c.v, j) && InBit(c.w, k)
  }

  /** `counts[i][j][k]` of calcTensor. */
  function UCount(cs: seq<Component>, i: nat, j: nat, k: nat): nat
  {
    if |cs| == 0 then 0 else (if UHas(cs[0], i, j, k) then 1 else 0) + UCount(cs[1..], i, j, k)
  }

  datatype TensorView = TensorView(tensor: seq<seq<seq<Bit01>>>, conflicts: seq<seq<seq<bool>>>)

  /** An n by n by n cube. */
  ghost predicate Cube<T>(a: seq<seq<seq<T>>>, n: nat)
  {
    && |a| == n
    && (forall i :: 0 <= i < n ==> |a[i]| == n)
    && (forall i, j :: 0 <= i < n && 0 <= j < n ==> |a[i][j]| == n)
  }

  /** calcTensor: the parity cube and the conflict cube of the components. */
  function CalcTensor(n: nat, cs: seq<Component>): (r: TensorView)
    ensures Cube(r.tensor, n) && Cube(r.conflicts, n)
    ensures forall i, j, k :: 0 <= i < n && 0 <= j < n && 0 <= k < n ==>
              && r.tensor[i][j][k] == UCount(cs, i, j, k) % 2
              && (r.conflicts[i][j][k] <==> UCount(cs, i, j, k) > 0 && UCount(cs, i, j, k) % 2 == 0)
  {
    TensorView(
      seq(n, i requires 0 <= i < n =>
        seq(n, j requires 0 <= j < n =>
          seq(n, k requires 0 <= k < n => UCount(cs, i, j, k) % 2))),
      seq(n, i requires 0 <= i < n =>
        seq(n, j requires 0 <= j < n =>
          seq(n, k requires 0 <= k < n => UCount(cs, i, j, k) > 0 && UCount(cs, i, j, k) % 2 == 0))))
  }

  /** A conflict cell has tensor bit 0: its contributions cancelled. */
  lemma ConflictCellIsZero(n: nat, cs: seq<Component>, i: nat, j: nat, k: nat)
    requires i < n && j < n && k < n
    requires CalcTensor(n, cs).conflicts[i][j][k]
    ensures CalcTensor(n, cs).tensor[i][j][k] == 0
  {
  }

  /** The tensor cube depends only on the parities of the counts. */
  lemma TensorFromParities(n: nat, a: seq<Component>, b: seq<Component>)
    requires forall i, j, k :: 0 <= i < n && 0 <= j < n && 0 <= k < n ==>
               UCount(a, i, j, k) % 2 == UCount(b, i, j, k) % 2
    ensures CalcTensor(n, a).tensor == CalcTensor(n, b).tensor
  {
    var ta, tb := CalcTensor(n, a).tensor, CalcTensor(n, b).tensor;
    forall i | 0 <= i < n
      ensures ta[i] == tb[i]
    {
      forall j | 0 <= j < n
        ensures ta[i][j] == tb[i][j]
      {
        forall k | 0 <= k < n
          ensures ta[i][j][k] == tb[i][j][k]
        {
        }
      }
    }
  }

  /** Both cubes depend only on the counts. */
  lemma ViewFromCounts(n: nat, a: seq<Component>, b: seq<Component>)
    requires forall i, j, k :: 0 <= i < n && 0 <= j < n && 0 <= k < n ==>
               UCount(a, i, j, k) == UCount(b, i, j, k)
    ensures CalcTensor(n, a) == CalcTensor(n, b)
  {
    TensorFromParities(n, a, b);
    var ca, cb := CalcTensor(n, a).conflicts, CalcTensor(n, b).conflicts;
    forall i | 0 <= i < n
      ensures ca[i] == cb[i]
    {
      forall j | 0 <= j < n
        ensures ca[i][j] == cb[i][j]
      {
        forall k | 0 <= k < n
          ensures ca[i][j][k] == cb[i][j][k]
        {
        }
      }
    }
  }

  lemma {:induction false} UCountAppend(a: seq<Component>, b: seq<Component>, i: nat, j: nat, k: nat)
    ensures UCount(a + b, i, j, k) == UCount(a, i, j, k) + UCount(b, i, j, k)
    decreases |a|
  {
    if |a| == 0 {
      assert a + b == b;
    } else {
      assert (a + b)[1..] == a[1..] + b;
      UCountAppend(a[1..], b, i, j, k);
    }
  }

  lemma UCountSplit(cs: seq<Component>, p: nat, i: nat, j: nat, k: nat)
    requires p < |cs|
    ensures UCount(cs, i, j, k)
         == UCount(cs[..p] + cs[p + 1..], i, j, k) + (if UHas(cs[p], i, j, k) then 1 else 0)
  {
    assert cs == cs[..p] + cs[p..];
    UCountAppend(cs[..p], cs[p..], i, j, k);
    UCountAppend(cs[..p], cs[p + 1..], i, j, k);
    assert cs[p..][1..] == cs[p + 1..];
  }

  /** The counts do not depend on the order of the components. */
  lemma {:induction false} UCountPermutation(a: seq<Component>, b: seq<Component>, i: nat, j: nat, k: nat)
    requires multiset(a) == multiset(b)
    ensures UCount(a, i, j, k) == UCount(b, i, j, k)
    decreases |a|
  {
    if |a| > 0 {
      var p := MatchHead(a, b);
      UCountPermutation(a[1..], b[..p] + b[p + 1..], i, j, k);
      UCountSplit(b, p, i, j, k);
    } else {
      assert |b| == |multiset(b)| == 0;
    }
  }

  /** calcTensor gives the same cubes for any reordering of the components. */
  lemma CalcTensorPermutation(n: nat, a: seq<Component>, b: seq<Component>)
    requires multiset(a) == multiset(b)
    ensures CalcTensor(n, a) == CalcTensor(n, b)
  {
    forall i, j, k | 0 <= i < n && 0 <= j < n && 0 <= k < n
      ensures UCount(a, i, j, k) == UCount(b, i, j, k)
    {
      UCountPermutation(a, b, i, j, k);
    }
    ViewFromCounts(n, a, b);
  }

  /** A component with an all-zero u, v or w adds to no count, so removing it
      leaves both cubes unchanged. */
  lemma CalcTensorDropEmpty(n: nat, cs: seq<Component>, p: nat)
    requires p < |cs| && !NonEmpty(cs[p])
    ensures CalcTensor(n, cs[..p] + cs[p + 1..]) == CalcTensor(n, cs)
  {
    forall i, j, k | 0 <= i < n && 0 <= j < n && 0 <= k < n
      ensures UCount(cs[..p] + cs[p + 1..], i, j, k) == UCount(cs, i, j, k)
    {
      UCountSplit(cs, p, i, j, k);
    }
    ViewFromCounts(n, cs[..p] + cs[p + 1..], cs);
  }

  /** The editor's counts are the counts of the packed terms. */
  lemma {:induction false} UCountPacked(cs: seq<Component>, i: nat, j: nat, k: nat)
    ensures UCount(cs, i, j, k) == Count(PackAll(cs), i, j, k)
    decreases |cs|
  {
    if |cs| > 0 {
      UCountPacked(cs[1..], i, j, k);
      assert PackAll(cs)[1..] == PackAll(cs[1..]);
      PackBitsBit(cs[0].u, i);
      PackBitsBit(cs[0].v, j);
      PackBitsBit(cs[0].w, k);
    }
  }

  /** Inside the n by n by n cube, unpacking at width n keeps every count. */
  lemma {:induction false} UCountUnpacked(ts: seq<Term>, n: nat, i: nat, j: nat, k: nat)
    requires i < n && j < n && k < n
    ensures UCount(UnpackAll(ts, n), i, j, k) == Count(ts, i, j, k)
    decreases |ts|
  {
    if |ts| > 0 {
      UCountUnpacked(ts[1..], n, i, j, k);
      assert UnpackAll(ts, n)[1..] == UnpackAll(ts[1..], n);
    }
  }
}

=== FILE: terms.dfy ===
/**
 Rank-1 terms. A term is a triple (u, v, w) of bit-vectors; the worker keeps the
 terms of a decomposition in one flat array `[u0, v0, w0, u1, v1, w1, ...]` and
 the editor keeps them as components of 0/1 arrays. This module holds the triple
 type, the conversions between those representations, and the result filter
 that drops terms with a zero component.
 */
module Terms {
  import opened Bits

  /** A component type: 0 for u, 1 for v, 2 for w. */
  type Comp = c: nat | c < 3

  /** The cyclic successor and predecessor of a component type
      (`(type + 1) % 3` and `(type + 2) % 3`). */
  function Next(c: Comp): Comp { (c + 1) % 3 }
  function Prev(c: Comp): Comp { (c + 2) % 3 }

  datatype Tri<T> = Tri(u: T, v: T, w: T)
  {
    function Get(c: Comp): T
    {
      if c == 0 then u else if c == 1 then v else w
    }

    /** The triple with component c replaced by x. */
    function With(c: Comp, x: T): (r: Tri<T>)
      ensures r.Get(c) == x
      ensures forall d: Comp :: d != c ==> r.Get(d) == Get(d)
      ensures x == Get(c) ==> r == this
    {
      if c == 0 then Tri(x, v, w) else if c == 1 then Tri(u, x, w) else Tri(u, v, x)
    }
  }

  /** A term of the worker: three packed bit-vectors. */
  type Term = Tri<nat>

  /** A component of the editor: three 0/1 arrays. */
  type Component = Tri<seq<Bit01>>

  const ZeroTerm: Term := Tri(0, 0, 0)

  /** The test of the result filter: all three components nonzero. */
  predicate AllNonzero(t: Term)
  {
    t.u != 0 && t.v != 0 && t.w != 0
  }

  /** The editor's "non-empty term" test: each of u, v, w has a set entry. */
  predicate NonEmpty(c: Component)
  {
    AnySet(c.u) && AnySet(c.v) && AnySet(c.w)
  }

  /** Lay triples out as `[u0, v0, w0, u1, ...]`. */
  function Flatten<T>(ts: seq<Tri<T>>): (r: seq<T>)
    ensures |r| == 3 * |ts|
  {
    seq(3 * |ts|, m requires 0 <= m < 3 * |ts| => ts[m / 3].Get(m % 3))
  }

  /** Read a flat array back as triples, entry `3 * k + c` being component c of term k. */
  function Unflatten<T>(flat: seq<T>): (r: seq<Tri<T>>)
    requires |flat| % 3 == 0
    ensures |r| == |flat| / 3
  {
    seq(|flat| / 3, k requires 0 <= k < |flat| / 3 => Tri(flat[3 * k], flat[3 * k + 1], flat[3 * k + 2]))
  }

  lemma UnflattenFlatten<T>(ts: seq<Tri<T>>)
    ensures Unflatten(Flatten(ts)) == ts
  {
    var f := Flatten(ts);
    var r := Unflatten(f);
    forall k | 0 <= k < |ts|
      ensures r[k] == ts[k]
    {
      assert f[3 * k] == ts[k].u;
      assert f[3 * k + 1] == ts[k].v;
      assert f[3 * k + 2] == ts[k].w;
    }
  }

  lemma FlattenUnflatten<T>(flat: seq<T>)
    requires |flat| % 3 == 0
    ensures Flatten(Unflatten(flat)) == flat
  {
    var ts := Unflatten(flat);
    var f := Flatten(ts);
    forall m | 0 <= m < |flat|
      ensures f[m] == flat[m]
    {
      var k := m / 3;
      assert m == 3 * k + m % 3;
    }
  }

  /** Appending three values appends one triple. */
  lemma UnflattenSnoc<T>(flat: seq<T>, a: T, b: T, c: T)
    requires |flat| % 3 == 0
    ensures Unflatten(flat + [a, b, c]) == Unflatten(flat) + [Tri(a, b, c)]
  {
    var f := flat + [a, b, c];
    var k := |flat| / 3;
    assert f[3 * k] == a && f[3 * k + 1] == b && f[3 * k + 2] == c;
  }

  function PackTri(c: Component): Term
  {
    Tri(PackBits(c.u), PackBits(c.v), PackBits(c.w))
  }

  function PackAll(cs: seq<Component>): (r: seq<Term>)
    ensures |r| == |cs|
  {
    seq(|cs|, k requires 0 <= k < |cs| => PackTri(cs[k]))
  }

  function UnpackAll(ts: seq<Term>, n: nat): (r: seq<Component>)
    ensures |r| == |ts|
    ensures Width(r, n)
  {
    seq(|ts|, k requires 0 <= k < |ts| => Tri(UnpackBits(n, ts[k].u), UnpackBits(n, ts[k].v), UnpackBits(n, ts[k].w)))
  }

  /** componentsToFlat: pack every vector and lay the terms out flat. */
  function ComponentsToFlat(cs: seq<Component>): (r: seq<nat>)
    ensures |r| == 3 * |cs|
  {
    Flatten(PackAll(cs))
  }

  /** flatToComponents: every group of three values becomes a component of
      width n. */
  function FlatToComponents(flat: seq<nat>, n: nat): (r: seq<Component>)
    requires |flat| % 3 == 0
    ensures 3 * |r| == |flat|
  {
    UnpackAll(Unflatten(flat), n)
  }

  /** Every vector of every component has length n. */
  predicate Width(cs: seq<Component>, n: nat)
  {
    forall k :: 0 <= k < |cs| ==> |cs[k].u| == n && |cs[k].v| == n && |cs[k].w| == n
  }

  /** Round trip through the worker's flat representation. */
  lemma ComponentsRoundTrip(cs: seq<Component>, n: nat)
    requires Width(cs, n)
    ensures FlatToComponents(ComponentsToFlat(cs), n) == cs
  {
    UnflattenFlatten(PackAll(cs));
    var r := FlatToComponents(ComponentsToFlat(cs), n);
    forall k | 0 <= k < |cs|
      ensures r[k] == cs[k]
    {
      UnpackPack(cs[k].u);
      UnpackPack(cs[k].v);
      UnpackPack(cs[k].w);
    }
  }

  /** The result filter of the worker: keep, in order, the terms whose three
      components are all nonzero. */
  function DropDead(ts: seq<Term>): (r: seq<Term>)
    ensures |r| <= |ts|
    ensures forall k :: 0 <= k < |r| ==> AllNonzero(r[k])
  {
    if |ts| == 0 then []
    else (if AllNonzero(ts[0]) then [ts[0]] else []) + DropDead(ts[1..])
  }

  /** a occurs in b in order, possibly with gaps. */
  predicate Subsequence(a: seq<Term>, b: seq<Term>)
    decreases |b|
  {
    || |a| == 0
    || (&& |b| > 0
        && ((a[0] == b[0] && Subsequence(a[1..], b[1..])) || Subsequence(a, b[1..])))
  }

  /** The filter keeps the terms in their original order. */
  lemma {:induction false} DropDeadOrder(ts: seq<Term>)
    ensures Subsequence(DropDead(ts), ts)
    decreases |ts|
  {
    if |ts| > 0 {
      DropDeadOrder(ts[1..]);
      var r := DropDead(ts);
      if AllNonzero(ts[0]) {
        assert r[0] == ts[0] && r[1..] == DropDead(ts[1..]);
      } else {
        assert r == DropDead(ts[1..]);
      }
    }
  }

  /** The filter keeps exactly the all-nonzero terms, each as often as it
      occurs. */
  lemma {:induction false} DropDeadExact(ts: seq<Term>)
    ensures forall t :: multiset(DropDead(ts))[t] == if AllNonzero(t) then multiset(ts)[t] else 0
    decreases |ts|
  {
    if |ts| > 0 {
      DropDeadExact(ts[1..]);
      assert ts == [ts[0]] + ts[1..];
      var r := DropDead(ts);
      if AllNonzero(ts[0]) {
        assert r == [ts[0]] + DropDead(ts[1..]);
      } else {
        assert r == DropDead(ts[1..]);
      }
    }
  }

  /** Filtering twice is filtering once. */
  lemma {:induction false} DropDeadIdempotent(ts: seq<Term>)
    ensures DropDead(DropDead(ts)) == DropDead(ts)
    decreases |ts|
  {
    if |ts| > 0 {
      DropDeadIdempotent(ts[1..]);
      var r := DropDead(ts[1..]);
      if AllNonzero(ts[0]) {
        var r0 := [ts[0]] + r;
        assert DropDead(ts) == r0;
        assert r0[0] == ts[0] && r0[1..] == r;
        assert DropDead(r0) == [ts[0]] + DropDead(r);
      } else {
        assert [] + r == r;
        assert DropDead(ts) == r;
      }
    }
  }

  lemma {:induction false} DropDeadAppend(a: seq<Term>, b: seq<Term>)
    ensures DropDead(a + b) == DropDead(a) + DropDead(b)
    decreases |a|
  {
    if |a| > 0 {
      assert (a + b)[1..] == a[1..] + b;
      DropDeadAppend(a[1..], b);
    } else {
      assert a + b == b;
    }
  }

  /** Extending the prefix by one term extends the filtered prefix by that
      term if it is kept. */
  lemma DropDeadSnoc(ts: seq<Term>, m: nat)
    requires m < |ts|
    ensures DropDead(ts[..m + 1]) == DropDead(ts[..m]) + (if AllNonzero(ts[m]) then [ts[m]] else [])
  {
    assert ts[..m + 1] == ts[..m] + [ts[m]];
    DropDeadAppend(ts[..m], [ts[m]]);
  }

  /** The slots of the first m terms whose components are all nonzero. */
  function LiveSlots(ts: seq<Term>, m: nat): set<nat>
    requires m <= |ts|
  {
    set s | 0 <= s < m && AllNonzero(ts[s])
  }

  /** The filter's output length counts the all-nonzero slots. */
  lemma {:induction false} DropDeadCount(ts: seq<Term>, m: nat)
    requires m <= |ts|
    ensures |DropDead(ts[..m])| == |LiveSlots(ts, m)|
    decreases m
  {
    if m > 0 {
      DropDeadCount(ts, m - 1);
      assert ts[..m] == ts[..m - 1] + [ts[m - 1]];
      DropDeadAppend(ts[..m - 1], [ts[m - 1]]);
      if AllNonzero(ts[m - 1]) {
        assert LiveSlots(ts, m) == LiveSlots(ts, m - 1) + {m - 1};
      } else {
        assert LiveSlots(ts, m) == LiveSlots(ts, m - 1);
      }
    }
  }

  /** The editor's non-empty count (`updateInfo`, `handleReduce`). */
  function NonEmptyCount(cs: seq<Component>): nat
  {
    if |cs| == 0 then 0 else (if NonEmpty(cs[0]) then 1 else 0) + NonEmptyCount(cs[1..])
  }

  /** The editor's non-empty count is the number of terms the worker's filter
      keeps from the packed input. */
  lemma {:induction false} NonEmptyCountIsKept(cs: seq<Component>)
    ensures NonEmptyCount(cs) == |DropDead(PackAll(cs))|
    decreases |cs|
  {
    if |cs| > 0 {
      NonEmptyCountIsKept(cs[1..]);
      assert PackAll(cs)[1..] == PackAll(cs[1..]);
      PackBitsNonzero(cs[0].u);
      PackBitsNonzero(cs[0].v);
      PackBitsNonzero(cs[0].w);
    }
  }

  /** The slots of the editor's list holding a non-empty component. */
  function NonEmptySlots(cs: seq<Component>): set<nat>
  {
    set s: nat | s < |cs| && NonEmpty(cs[s])
  }

  /** The non-empty count counts exactly the non-empty components. */
  lemma NonEmptyCountSlots(cs: seq<Component>)
    ensures NonEmptyCount(cs) == |NonEmptySlots(cs)|
  {
    var ts := PackAll(cs);
    NonEmptyCountIsKept(cs);
    DropDeadCount(ts, |cs|);
    assert ts[..|cs|] == ts;
    forall s: nat | s < |cs|
      ensures NonEmpty(cs[s]) <==> AllNonzero(ts[s])
    {
      PackBitsNonzero(cs[s].u);
      PackBitsNonzero(cs[s].v);
      PackBitsNonzero(cs[s].w);
    }
    assert LiveSlots(ts, |cs|) == NonEmptySlots(cs);
  }
}
